=== FILE: README.md ===
# iUSD: a Dafny model of the CDP core

iUSD is a collateralised stablecoin on the Internet Computer. Users lock ICP, ckBTC or ckETH
in a vault and mint iUSD against it, up to a loan-to-value (LTV) ratio. The protocol:

- values collateral with a median of several price sources;
- lets whitelisted liquidators repay the debt of an under-collateralised vault in exchange
  for collateral plus a bonus;
- keeps the iUSD balances in a ledger canister whose minting and burning are restricted to
  authorised minters.

This project models the five parts of that core as immutable datatypes and pure transition
functions. Each operation returns the new state together with a `Result`, and every
rejection leaves the state unchanged:

| file | module | models |
|---|---|---|
| common.dfy | `Common` | principals, the error messages, `Result`, `Step(state, result)` |
| vault_system.dfy | `Vaults` | `VaultController`: vault ledger, LTV checks, liquidation test |
| liquidation.dfy | `Liquidation` | `LiquidationController`: whitelist, seizure, bounds, settlement legs, event log |
| price_feed.dfy | `PriceFeed` | `aggregate_prices`: age filter, quorum, median, deviation gate |
| iusd_token.dfy | `Token` | `TokenState`: minter-gated mint/burn, owner-gated transfer, supply invariant |
| canister_init.dfy | `Canister` | the vault canister's `init` and what its configuration guarantees |

Several things the canisters obtain from their host are passed in as parameters:

- The caller, the canister's own principal and the clock.
- The USD value of an amount of collateral. This is an `Oracle`, a function that returns
  either a value in iUSD base units or the price feed's error.
- The outcome of each inter-canister call: iUSD mint and burn, and the two liquidation
  transfers.
- Whether a vault owner's text parses as a principal.

Prices are exact reals. The liquidation bonus is applied in exact integer arithmetic,
rounded down.

The model keeps these behaviours of the code as they are written:

- Price deviation is measured against the median rather than between pairs of quotes. The pair
  100/106 deviates 3/103 from its median 103, so it is accepted
  (`PriceFeed.AggregateExamples`).
- A liquidation never writes the vault back: neither its collateral nor its debt shrinks,
  so the same liquidation can run again at once (`Liquidation.LiquidationRepeats`).
- A collateral transfer that fails after the iUSD transfer succeeded is not compensated.
  The model reports this outcome as `Err(CollateralTransferFailed)` together with a
  `Settlement` recording that `debtToCover` iUSD was collected and no collateral was sent.
- The seizure amount stays in iUSD units. The collateral value that `execute_liquidation`
  computes is never used; the model keeps only the fact that its failure aborts the call.
- The comments in `init` say the minimum deposits are 1 ICP and 0.01 ckETH. The constants
  are 1_000_000_000 ICP base units and 1_000_000 ckETH base units, which at 8 and 18
  decimals are 10 ICP and 10^-12 ckETH. The model uses the constants.
- The comments in `is_liquidatable` call the liquidation threshold "slightly higher than" and
  "5% above" the LTV ratio (src/vault_system.rs:259, 263), but the code takes 95% of it
  (line 264). The model follows the code, so a vault minted up to its cap is already
  liquidatable (`Vaults.MintCapNotSafe`, `Canister.EndToEnd`).

## Model

| member | source | states |
|---|---|---|
| Vaults.CreateVault | src/vault_system.rs:63-81 | returns the previous counter as the new id, advances the counter by one, adds exactly that key with an empty vault of the given owner and type stamped with the current time, and keeps every other vault and the configuration |
| Vaults.CreateVaultNeverOverwrites | src/vault_system.rs:63-81 | while every stored id is below the counter, the new id is unused, the invariant survives and the number of vaults grows by exactly one |
| Vaults.DepositCollateral | src/vault_system.rs:84-104 | succeeds exactly when the vault exists, its type has a minimum and the new total reaches it; on success only this vault changes, its collateral grows by `amount` and debt, owner and type stay; an unknown vault or a total below the minimum gives the matching error with nothing changed |
| Vaults.WithdrawCollateral | src/vault_system.rs:136-165 | succeeds exactly when the amount is covered, the remaining collateral can be valued, the type has a ratio and `debt * 100` is within the maximum debt of the remaining value; on success only this vault's collateral falls by `amount` |
| Vaults.WithdrawCollateralIntended | src/vault_system.rs:155-158 | the corrected withdrawal succeeds exactly when the amount is covered, the remaining collateral can be valued, the type has a ratio and the debt itself is within the maximum debt of the remaining value; then only this vault's collateral falls by `amount`, its owner, type and debt stay and it is stamped with the current time |
| Vaults.WithdrawAsWrittenIsStricter | src/vault_system.rs:155-158 | every withdrawal the written test accepts, the corrected test accepts with the same resulting state |
| Vaults.WithdrawScaleCounterexample | src/vault_system.rs:157 | a withdrawal that leaves a debt of 10 backed by a value of 1000 at 75% is refused as written and accepted by the corrected test |
| Vaults.DepositThenWithdraw | src/vault_system.rs:136-165 | withdrawing an amount just deposited is judged on the original collateral's value and, when accepted, restores the controller up to the vault's timestamp |
| Vaults.MintIusd | src/vault_system.rs:190-222 | succeeds exactly when the vault exists, its collateral can be valued, its type has a ratio, the new debt is within the maximum debt of that value, the owner parses and the mint call succeeds; then only this vault changed and its debt grew by `amount`; an unknown vault, a debt above the cap or a failed mint call is an error with nothing changed |
| Vaults.RepayDebt | src/vault_system.rs:225-249 | succeeds exactly when the vault exists, the amount is at most the debt, the owner parses and the burn call succeeds; then only this vault's debt falls by `amount`, collateral untouched |
| Vaults.MintThenRepay | src/vault_system.rs:225-249 | repaying the amount just minted succeeds and restores the controller up to the vault's timestamp |
| Vaults.IsLiquidatable | src/vault_system.rs:252-268 | answers exactly whether the debt exceeds the value times 95% of the ratio over 10000; an error means an unknown vault, a failed valuation or an unconfigured type |
| Vaults.LiquidatableMonotoneInValue | src/vault_system.rs:262-267 | with the debt fixed, a lower collateral value keeps a liquidatable vault liquidatable |
| Vaults.VaultLiquidatableMonotone | src/vault_system.rs:252-268 | a vault liquidatable at one price stays liquidatable under any lower valuation |
| Vaults.AboveMintCapIsLiquidatable | src/vault_system.rs:205-206 | a debt above the mint-time cap is always above the liquidation threshold |
| Vaults.MintCapNotSafe | src/vault_system.rs:262-267 | a vault minted exactly to the cap (7500 of 10000) is already liquidatable |
| Liquidation.Seizure | src/liquidation.rs:84-85 | the seized amount is the debt scaled by (10000 + bonus)/10000 rounded down, never less than the debt, equal to it without a bonus |
| Liquidation.ExecuteLiquidation | src/liquidation.rs:59-118 | each rejection (unauthorised caller, unknown vault, not liquidatable, failed revaluation, seizure outside the bounds, failed iUSD leg) moves nothing and keeps the controller; a failed collateral leg after the iUSD leg keeps the controller but reports the debt collected and no collateral sent; success happens exactly when every check and both legs pass, and appends exactly the returned event with a seizure inside the bounds |
| Liquidation.LiquidationRepeats | src/liquidation.rs:106-117 | since the vault is never reduced, a successful liquidation succeeds again with the same arguments, logging a second event and collecting the debt twice |
| Liquidation.ScanVaults | src/liquidation.rs:44-56 | succeeds exactly when every vault can be valued, then returns exactly the liquidatable ids; an error is one some vault's valuation produced |
| Liquidation.UpdateLiquidationConfig | src/liquidation.rs:207-216 | only the canister itself may replace the configuration; the event log is kept |
| Liquidation.AddLiquidator | src/liquidation.rs:218-227 | only the canister itself may add a liquidator; the new principal becomes authorised, everyone authorised before stays so, and bonus and bounds are unchanged |
| Liquidation.AddLiquidatorAuthorizes | src/liquidation.rs:65-68 | after being added, a liquidator's call is no longer stopped by the whitelist: it fails on an unknown vault and succeeds exactly when the vault is liquidatable, the revaluation succeeds, the seizure is within the unchanged bounds and both legs pass |
| Liquidation.UpdatedConfigGoverns | src/liquidation.rs:207-216 | after a configuration update, the next liquidation rejects callers outside the new whitelist, succeeds exactly under the new bounds, and seizes according to the new bonus |
| PriceFeed.FreshPrices | src/price_feed.rs:157-160 | keeps the price of every quote at most 300 seconds old and only prices of such quotes |
| PriceFeed.FreshPricesCount | src/price_feed.rs:157-160 | as many prices survive as there are fresh quotes, so equal prices from different sources are all counted |
| PriceFeed.FreshPricesPermutation | src/price_feed.rs:157-160 | reordering the quotes reorders the surviving prices and nothing more |
| PriceFeed.Sort | src/price_feed.rs:167-168 | the result is sorted and a permutation of the input |
| PriceFeed.SortPermutation | src/price_feed.rs:167-168 | any two orderings of the same prices sort to the same sequence |
| PriceFeed.Median | src/price_feed.rs:169-173 | the median of a sorted sequence lies between its first and last element |
| PriceFeed.MedianBetween | src/price_feed.rs:167-173 | the median of a set of prices lies between two of those prices |
| PriceFeed.MedianExamples | src/price_feed.rs:167-173 | 100, 102, 98 have median 100 and 100, 110 have median 105 |
| PriceFeed.MaxDeviation | src/price_feed.rs:176-180 | bounds every price's relative deviation from the median and is attained by one of them |
| PriceFeed.DeviationBound | src/price_feed.rs:176-185 | a relative deviation is non-negative and within a threshold exactly when the absolute difference is within threshold times median |
| PriceFeed.MaxDeviationOfValid | src/price_feed.rs:167-180 | the maximum deviation taken over the sorted copy bounds every valid price's deviation and is attained by one valid price |
| PriceFeed.AggregateDeviationCheck | src/price_feed.rs:176-185 | a deviation that bounds and is attained by the valid prices is non-negative, and passes the 5% gate exactly when every valid price lies within 5% of the median |
| PriceFeed.AggregateValid | src/price_feed.rs:162-192 | fewer than two prices give the quorum error; otherwise the result is accepted exactly when all prices are within 5% of their median and is the deviation error when not; an accepted result reports the median, the largest relative deviation from it (attained by one price, between 0 and 0.05), the count as a u8 and the current time |
| PriceFeed.AggregatePrices | src/price_feed.rs:150-193 | the quorum error exactly when fewer than two quotes are fresh; acceptance exactly when the fresh prices are within 5% of their median, the deviation error otherwise; an accepted result reports the median, the largest relative deviation from it, the number of fresh quotes as a u8 and the time; the price lies between two fresh prices and within 5% of each |
| PriceFeed.AggregateOrderIndependent | src/price_feed.rs:150-193 | the outcome does not depend on the order in which the quotes arrive |
| PriceFeed.TwoQuotes | src/price_feed.rs:176-185 | two prices are accepted exactly when half their spread is within 5% of their midpoint |
| PriceFeed.AggregateExamples | src/price_feed.rs:150-193 | 100 and 106 are accepted at 103; 100 and 120 are rejected for deviation; one fresh quote beside a 301-second-old one is too few |
| Token.New | src/iusd_token.rs:49-61 | a new ledger has supply 0, 8 decimals, no balances, minters or history, and satisfies the supply invariant |
| Token.Mint | src/iusd_token.rs:64-84 | succeeds exactly for a minter; then the recipient's balance and the supply rise by `amount`, name, symbol and decimals stay, other balances stay and one Mint record is appended; otherwise "Unauthorized minter" with nothing changed |
| Token.MintConserves | src/iusd_token.rs:64-84 | minting keeps the sum of balances equal to the supply |
| Token.Burn | src/iusd_token.rs:87-113 | succeeds exactly for a minter burning at most the balance; then balance and supply fall by `amount`, name, symbol and decimals stay, other balances stay and one Burn record to the anonymous principal is appended; otherwise the matching error with nothing changed |
| Token.BurnConserves | src/iusd_token.rs:87-113 | burning keeps the sum of balances equal to the supply |
| Token.BurnWithinSupply | src/iusd_token.rs:93-99 | while the invariant holds no balance exceeds the supply, so the supply decrement never goes below zero |
| Token.Transfer | src/iusd_token.rs:117-150 | succeeds exactly when the caller owns the source and the balance covers the amount; between distinct accounts it moves exactly `amount`, leaving the supply and all other balances unchanged; a self-transfer raises the balance by `amount` |
| Token.TransferDistinctConserves | src/iusd_token.rs:134-138 | a transfer between distinct accounts keeps the sum of balances equal to the supply |
| Token.SelfTransferInflates | src/iusd_token.rs:129-138 | a successful self-transfer of a positive amount makes the sum of balances exceed the supply by that amount |
| Token.SelfTransferExample | src/iusd_token.rs:129-138 | after minting 100 to an account, a self-transfer of 50 leaves it with 150 against a supply of 100 |
| Token.SelfTransferThenBurnUnderflows | src/iusd_token.rs:93-99 | after that self-transfer, burning the inflated 150 is accepted and takes the supply to -50, which the unsigned supply cannot hold |
| Token.TransferCorrected | src/iusd_token.rs:129-138 | the corrected transfer has the same acceptance condition, moves exactly `amount` between distinct accounts, leaves a self-transfer's balance as it was, and appends one Transfer record |
| Token.TransferCorrectedConserves | src/iusd_token.rs:129-138 | the corrected transfer keeps the sum of balances equal to the supply for every pair of accounts |
| Token.AddMinter | src/iusd_token.rs:185-193 | only the canister itself may add a minter, which is appended; balances, supply and history are untouched |
| Token.AddMinterEnablesMint | src/iusd_token.rs:185-193 | adding a minter keeps the supply invariant, and the new minter's next mint is accepted and credits the recipient |
| Canister.Init | src/lib.rs:14-28 | starts with no vaults and counter 0, every collateral type at ratio 7500 with a positive minimum (10^9 ICP, 10^5 ckBTC, 10^6 ckETH base units), and liquidation threshold 7125 |
| Canister.NeverUnsupported | src/lib.rs:19-26 | once every type is configured, deposit, withdrawal, mint and the liquidation test never fail with "Collateral type not supported" |
| Canister.OperationsKeepSupported | src/lib.rs:19-26 | every vault operation keeps every collateral type configured |
| Canister.EndToEnd | src/lib.rs:19-24 | after depositing $10 of ICP at 75%, minting $8 fails, minting $7 succeeds, and minting exactly $7.50 leaves the vault liquidatable |

## Left out

- `get_collateral_value` (src/vault_system.rs:107-133) is the `Oracle` parameter: it returns any value in iUSD base units, or an error. That value decides the maximum debt in withdrawal and minting and the threshold in the liquidation test. Its per-asset decimals, its f64 rounding and its monotonicity in the amount are not modelled.
- `get_health_factor` is an f64 quotient and is not modelled.
- The price fetchers, `fetch_prices`, the HTTP request and its transform, `get_price` and `get_supported_assets` are network I/O and third-party formats. The "No prices received" error exists only as a value an `Oracle` may return.
- The inter-canister calls are replaced by one boolean outcome each: mint, burn, iUSD to the protocol, and collateral to the liquidator.
- `Principal::from_text` on the vault owner is a boolean parameter.
- Canister endpoints, `ic_cdk::storage`, and stable save and restore are host plumbing and are not modelled.
- `init` configures the thread-local `STATE` (src/lib.rs:9-27), while the vault endpoints read the controller through `ic_cdk::storage::get_mut` (src/vault_system.rs:289-322). The model assumes both are the same controller; if they are not, the endpoints see an unconfigured controller and `Canister.NeverUnsupported` does not apply to them. The token's `transfer` endpoint fixes the source to the caller's default account; the model takes any source account.
- Interleaving at `.await` points is not modelled: each operation is atomic. The reentrancy hazard this opens in the source is therefore outside the model.
- The off-chain liquidator bot is not part of this model.
- Integer widths are unbounded, so u128 and u64 overflow and underflow are not modelled. The one exception is the `u8` cast of `sources_used`, which is modelled as the count modulo 256.
- Liquidation.Seizure: computes the bonus in exact integers rounded down. The source multiplies by the f64 nearest to (10000 + bonus)/10000 and truncates, which can land one below the exact floor at ordinary amounts: with bonus 1500 and a debt of 100 the source seizes 114 where the model seizes 115, so near `min_liquidation_amount` the source can reject a liquidation the model accepts. From debts of 2^53 up, `debt_to_cover as f64` itself rounds, so the source can seize less than the debt even without a bonus (2^53 for a debt of 2^53 + 1); the model's "never less than the debt" holds in the source only below 2^53.
- PriceFeed.AggregatePrices: requires every quote's timestamp to be at most `now`, because the source's u64 subtraction has no defined meaning otherwise. It also requires every price to be positive, because a zero median makes the source divide by zero. This also excludes two cases the source accepts: negative prices, for which the source's deviation `abs / median` is negative and always passes the gate (for -100 and -105 it reports median -102.5 and a maximum deviation of about -0.024), and non-positive stale quotes, which the source filters out before any division.
- PriceFeed.AggregatePrices: uses exact reals, so f64 rounding and the NaN panic in `partial_cmp().unwrap()` are not modelled.
- Liquidation.ScanVaults: the HashMap's iteration order is the parameter `order`. It is required to list exactly the stored vault ids.
- Token.Burn: `totalSupply` is an integer so that the subtraction is written without a guard, and the u128 trap or wrap-around of the source is not modelled. `Token.BurnWithinSupply` shows the supply stays non-negative while the supply invariant holds, but a self-transfer breaks that invariant, and `Token.SelfTransferThenBurnUnderflows` shows a burn that then takes the supply below zero.

## Findings

| source | as written | input that shows it | evidently intended | confidence | as-written member | corrected member |
|---|---|---|---|---|---|---|
| src/iusd_token.rs:134-138 | `transfer` reads the recipient's balance before writing the sender's. When sender and recipient are the same account, the second write replaces the debit. The model assumes the reads are copied out before the writes; Rust's borrow rules would reject holding both references across the insert. | an account holding 100 of a supply of 100 transfers 50 to itself and ends with 150; a minter can then burn all 150, taking the supply to -50 | a self-transfer leaves the balance as it was, and the balances sum to the supply | not executed; medium | Token.SelfTransferInflates | Token.TransferCorrectedConserves |
| src/vault_system.rs:157 | `withdraw_collateral` compares `debt_amount * 100` with the maximum debt of the remaining collateral | collateral 2000 valued at 1 iUSD unit each, debt 10, ratio 7500, withdraw 1000: the maximum debt is 750 and 10 * 100 = 1000 > 750, so the withdrawal is refused | compare `debt_amount` itself with the maximum debt, as `mint_iusd` does | not executed; medium | Vaults.WithdrawScaleCounterexample | Vaults.WithdrawCollateralIntended |

=== FILE: canister_init.dfy ===
/** The vault canister's `init` (src/lib.rs): the default controller with every collateral type
    configured, and what that configuration guarantees to the vault operations. */
module Canister {
  import opened Common
  import opened Vaults

  /** Default LTV ratio of every collateral type: 75%, in basis points. */
  const DefaultRatio: nat := 7500

  /** `init`: the empty controller with a ratio and a minimum deposit for each collateral type. */
  function Init(): (c: Controller)
    ensures c.vaults == map[] && c.nextVaultId == 0
    ensures Supported(c) && IdsBelowNext(c)
    ensures forall ct: CollateralType :: c.ratios[ct] == DefaultRatio
    ensures forall ct: CollateralType :: c.minCollateral[ct] > 0
    ensures c.minCollateral[ICP] == 1_000_000_000
    ensures c.minCollateral[CkBTC] == 100_000
    ensures c.minCollateral[CkETH] == 1_000_000
    ensures LiquidationRatio(c.ratios[ICP]) == 7125
  {
    var c := Empty().(
      ratios := map[ICP := DefaultRatio, CkBTC := DefaultRatio, CkETH := DefaultRatio],
      minCollateral := map[ICP := 1_000_000_000, CkBTC := 100_000, CkETH := 1_000_000]);
    EveryTypeListed(c.ratios);
    EveryTypeListed(c.minCollateral);
    c
  }

  /** A map with an entry for each of the three collateral types covers all of them. */
  lemma EveryTypeListed(m: map<CollateralType, nat>)
    requires ICP in m && CkBTC in m && CkETH in m
    ensures forall ct: CollateralType :: ct in m
  {
    forall ct: CollateralType ensures ct in m {
      match ct { case ICP => case CkBTC => case CkETH => }
    }
  }

  /** Once every type is configured, no vault operation can fail for an unsupported type. */
  lemma NeverUnsupported(c: Controller, id: nat, amount: nat, oracle: Oracle,
                         ownerIsPrincipal: bool, callOk: bool, now: nat)
    requires Supported(c)
    ensures DepositCollateral(c, id, amount, now).result != Err(CollateralTypeNotSupported)
    ensures id in c.vaults && oracle(c.vaults[id].collateralType, c.vaults[id].collateral).Ok? ==>
      && MintIusd(c, id, amount, oracle, ownerIsPrincipal, callOk, now).result != Err(CollateralTypeNotSupported)
      && IsLiquidatable(c, id, oracle).Ok?
    ensures id in c.vaults && amount <= c.vaults[id].collateral
            && oracle(c.vaults[id].collateralType, c.vaults[id].collateral - amount).Ok? ==>
      WithdrawCollateral(c, id, amount, oracle, now).result != Err(CollateralTypeNotSupported)
  {
  }

  /** Every vault operation keeps the configuration, so the types stay supported. */
  lemma OperationsKeepSupported(c: Controller, owner: string, ct: CollateralType, id: nat, amount: nat,
                                oracle: Oracle, ownerIsPrincipal: bool, callOk: bool, now: nat)
    requires Supported(c)
    ensures Supported(CreateVault(c, owner, ct, now).state)
    ensures Supported(DepositCollateral(c, id, amount, now).state)
    ensures Supported(WithdrawCollateral(c, id, amount, oracle, now).state)
    ensures Supported(MintIusd(c, id, amount, oracle, ownerIsPrincipal, callOk, now).state)
    ensures Supported(RepayDebt(c, id, amount, ownerIsPrincipal, callOk, now).state)
  {
  }

  /** One collateral unit is worth one iUSD base unit: 1_000_000_000 units are worth $10. */
  function TenDollarsPerBillion(ct: CollateralType, amount: nat): Result<nat> {
    Ok(amount)
  }

  /** A walk-through: $10 of collateral at a 75% ratio supports $7.50 of debt,
      so minting $8 fails, minting $7 succeeds, and minting exactly $7.50 leaves the vault
      already above the 71.25% liquidation threshold. */
  lemma EndToEnd()
    ensures var created := CreateVault(Init(), "owner", ICP, 0);
      var deposited := DepositCollateral(created.state, 0, 1_000_000_000, 1);
      && created.result == Ok(0)
      && deposited.result.Ok?
      && MintIusd(deposited.state, 0, 800_000_000, TenDollarsPerBillion, true, true, 2).result == Err(MintExceedsMaxLtv)
      && MintIusd(deposited.state, 0, 700_000_000, TenDollarsPerBillion, true, true, 2).result.Ok?
      && var capped := MintIusd(deposited.state, 0, 750_000_000, TenDollarsPerBillion, true, true, 2);
         && capped.result.Ok?
         && IsLiquidatable(capped.state, 0, TenDollarsPerBillion) == Ok(true)
  {
    var created := CreateVault(Init(), "owner", ICP, 0);
    var deposited := DepositCollateral(created.state, 0, 1_000_000_000, 1);
    assert deposited.state.vaults[0].collateral == 1_000_000_000;
    assert MaxDebt(1_000_000_000, DefaultRatio) == 750_000_000;
    var capped := MintIusd(deposited.state, 0, 750_000_000, TenDollarsPerBillion, true, true, 2);
    assert capped.state.vaults[0].debt == 750_000_000;
    assert LiquidationRatio(DefaultRatio) == 7125;
    assert 1_000_000_000 * 7125 / BasisPoints == 712_500_000;
  }
}

=== FILE: common.dfy ===
/** Types shared by every component of the iUSD protocol model. */
module Common {

  /** A principal (canister or user identity), kept in its textual form. */
  type Principal = string

  datatype Option<+T> = None | Some(value: T)

  /** The error strings the canisters return, one constructor per distinct message. */
  datatype Error =
    // vault controller
    | VaultNotFound
    | CollateralTypeNotSupported
    | BelowMinimumCollateral
    | InsufficientCollateralBalance
    | WithdrawalExceedsMaxLtv
    | MintExceedsMaxLtv
    | RepaymentExceedsDebt
    | InvalidOwnerPrincipal
    | MintCallFailed
    | BurnCallFailed
    // liquidation controller
    | UnauthorizedLiquidator
    | NotLiquidatable
    | InvalidLiquidationAmount
    | IusdTransferFailed
    | CollateralTransferFailed
    | Unauthorized
    // price feed
    | NoPricesReceived
    | InsufficientValidPriceSources
    | PriceDeviationTooHigh
    // iUSD token
    | UnauthorizedMinter
    | InsufficientBalance
    | UnauthorizedTransfer

  datatype Result<+T> = Ok(value: T) | Err(error: Error)

  /** The state after a `&mut self` call together with what the call returned. */
  datatype Step<+S, +T> = Step(state: S, result: Result<T>)
}

=== FILE: iusd_token.dfy ===
/** The iUSD token ledger (`TokenState` in src/iusd_token.rs).

    The caller, the canister's own principal and the time are parameters. The ledger is meant
    to keep the sum of all balances equal to the total supply; minting, burning and transfers
    between distinct accounts do, but a transfer from an account to itself does not. */
module Token {
  import opened Common

  datatype Account = Account(owner: Principal, subaccount: Option<seq<bv8>>)

  datatype TransactionType = MintTx | BurnTx | TransferTx

  datatype Transaction = Transaction(
    from: Option<Account>,
    to: Account,
    amount: nat,
    timestamp: nat,
    kind: TransactionType)

  /** `totalSupply` is an `int` so that a burn subtracts without a guard, as the source does;
      the supply invariant keeps it non-negative. */
  datatype Metadata = Metadata(name: string, symbol: string, decimals: nat, totalSupply: int)

  datatype TokenState = TokenState(
    metadata: Metadata,
    balances: map<Account, nat>,
    minters: seq<Principal>,
    transactions: seq<Transaction>)

  /** Textual form of `Principal::anonymous()`, the recipient recorded for burns. */
  const AnonymousPrincipal: Principal := "2vxsx-fae"

  /** `balances.get(a).unwrap_or(&0)`. */
  function Balance(m: map<Account, nat>, a: Account): nat {
    if a in m then m[a] else 0
  }

  /** Sum of all balances. */
  ghost function Total(m: map<Account, nat>): nat
    decreases m.Keys
  {
    if exists a :: a in m then
      var a :| a in m;
      assert (m - {a}).Keys < m.Keys;
      m[a] + Total(m - {a})
    else 0
  }

  /** The sum can be split at any key, not only the one `Total` picks. */
  lemma {:induction false} TotalRemove(m: map<Account, nat>, a: Account)
    requires a in m
    ensures Total(m) == m[a] + Total(m - {a})
    decreases m.Keys
  {
    var b :| b in m && Total(m) == m[b] + Total(m - {b});
    if b != a {
      var mb, ma := m - {b}, m - {a};
      assert mb.Keys < m.Keys && ma.Keys < m.Keys;
      assert a in mb && b in ma;
      TotalRemove(mb, a);
      TotalRemove(ma, b);
      assert mb - {a} == ma - {b};
    }
  }

  /** Overwriting one balance changes the sum by the difference. */
  lemma TotalUpdate(m: map<Account, nat>, a: Account, v: nat)
    ensures Total(m[a := v]) + Balance(m, a) == Total(m) + v
  {
    var m' := m[a := v];
    TotalRemove(m', a);
    if a in m {
      TotalRemove(m, a);
      assert m' - {a} == m - {a};
    } else {
      assert m' - {a} == m;
    }
  }

  /** The supply invariant. */
  ghost predicate Conserved(s: TokenState) {
    Total(s.balances) == s.metadata.totalSupply
  }

  /** `TokenState::new()`. */
  function New(): (s: TokenState)
    ensures s.metadata.totalSupply == 0 && s.metadata.decimals == 8
    ensures s.balances == map[] && s.minters == [] && s.transactions == []
    ensures Conserved(s)
  {
    TokenState(Metadata("Internet Computer USD", "iUSD", 8, 0), map[], [], [])
  }

  function Mint(s: TokenState, caller: Principal, to: Account, amount: nat, now: nat): (r: Step<TokenState, ()>)
    ensures r.result.Ok? <==> caller in s.minters
    ensures r.result.Err? ==> r.result.error == UnauthorizedMinter && r.state == s
    ensures r.result.Ok? ==>
      && Balance(r.state.balances, to) == Balance(s.balances, to) + amount
      && r.state.metadata.totalSupply == s.metadata.totalSupply + amount
      && r.state.metadata == s.metadata.(totalSupply := s.metadata.totalSupply + amount)
      && (forall a :: a != to ==> Balance(r.state.balances, a) == Balance(s.balances, a))
      && r.state.transactions == s.transactions + [Transaction(None, to, amount, now, MintTx)]
      && r.state.minters == s.minters
  {
    if caller !in s.minters then Step(s, Err(UnauthorizedMinter))
    else
      var balances := s.balances[to := Balance(s.balances, to) + amount];
      var metadata := s.metadata.(totalSupply := s.metadata.totalSupply + amount);
      var tx := Transaction(None, to, amount, now, MintTx);
      Step(s.(metadata := metadata, balances := balances, transactions := s.transactions + [tx]), Ok(()))
  }

  function Burn(s: TokenState, caller: Principal, from: Account, amount: nat, now: nat): (r: Step<TokenState, ()>)
    ensures r.result.Ok? <==> caller in s.minters && amount <= Balance(s.balances, from)
    ensures r.result.Err? ==> r.state == s
    ensures caller !in s.minters ==> r.result == Err(UnauthorizedMinter)
    ensures caller in s.minters && amount > Balance(s.balances, from) ==> r.result == Err(InsufficientBalance)
    ensures r.result.Ok? ==>
      && Balance(r.state.balances, from) + amount == Balance(s.balances, from)
      && r.state.metadata.totalSupply + amount == s.metadata.totalSupply
      && r.state.metadata == s.metadata.(totalSupply := s.metadata.totalSupply - amount)
      && (forall a :: a != from ==> Balance(r.state.balances, a) == Balance(s.balances, a))
      && r.state.transactions
         == s.transactions + [Transaction(Some(from), Account(AnonymousPrincipal, None), amount, now, BurnTx)]
      && r.state.minters == s.minters
  {
    if caller !in s.minters then Step(s, Err(UnauthorizedMinter))
    else
      var current := Balance(s.balances, from);
      if current < amount then Step(s, Err(InsufficientBalance))
      else
        var balances := s.balances[from := current - amount];
        var metadata := s.metadata.(totalSupply := s.metadata.totalSupply - amount);
        var tx := Transaction(Some(from), Account(AnonymousPrincipal, None), amount, now, BurnTx);
        Step(s.(metadata := metadata, balances := balances, transactions := s.transactions + [tx]), Ok(()))
  }

  /** `transfer` as written: the recipient's balance is read before the sender's is written, so
      when `from == to` the second write wins and the balance grows by `amount`. */
  function Transfer(s: TokenState, caller: Principal, from: Account, to: Account, amount: nat, now: nat): (r: Step<TokenState, ()>)
    ensures r.result.Ok? <==> from.owner == caller && amount <= Balance(s.balances, from)
    ensures r.result.Err? ==> r.state == s
    ensures from.owner != caller ==> r.result == Err(UnauthorizedTransfer)
    ensures from.owner == caller && amount > Balance(s.balances, from) ==> r.result == Err(InsufficientBalance)
    ensures r.result.Ok? ==>
      && r.state.metadata == s.metadata
      && r.state.minters == s.minters
      && r.state.transactions == s.transactions + [Transaction(Some(from), to, amount, now, TransferTx)]
      && (forall a :: a != from && a != to ==> Balance(r.state.balances, a) == Balance(s.balances, a))
    ensures r.result.Ok? && from != to ==>
      && Balance(r.state.balances, from) + amount == Balance(s.balances, from)
      && Balance(r.state.balances, to) == Balance(s.balances, to) + amount
    ensures r.result.Ok? && from == to ==> Balance(r.state.balances, from) == Balance(s.balances, from) + amount
  {
    if from.owner != caller then Step(s, Err(UnauthorizedTransfer))
    else
      var fromBalance := Balance(s.balances, from);
      if fromBalance < amount then Step(s, Err(InsufficientBalance))
      else
        var toBalance := Balance(s.balances, to);
        var balances := s.balances[from := fromBalance - amount][to := toBalance + amount];
        var tx := Transaction(Some(from), to, amount, now, TransferTx);
        Step(s.(balances := balances, transactions := s.transactions + [tx]), Ok(()))
  }

  /** The transfer with the recipient's balance read after the sender's is written, which
      makes a self-transfer leave the balance as it was. */
  function TransferCorrected(s: TokenState, caller: Principal, from: Account, to: Account, amount: nat, now: nat): (r: Step<TokenState, ()>)
    ensures r.result.Ok? <==> from.owner == caller && amount <= Balance(s.balances, from)
    ensures r.result.Err? ==> r.state == s
    ensures r.result.Ok? ==>
      && r.state.metadata == s.metadata
      && (forall a :: a != from && a != to ==> Balance(r.state.balances, a) == Balance(s.balances, a))
      && (from == to ==> Balance(r.state.balances, from) == Balance(s.balances, from))
      && (from != to ==> Balance(r.state.balances, from) + amount == Balance(s.balances, from)
                         && Balance(r.state.balances, to) == Balance(s.balances, to) + amount)
      && r.state.minters == s.minters
      && r.state.transactions == s.transactions + [Transaction(Some(from), to, amount, now, TransferTx)]
  {
    if from.owner != caller then Step(s, Err(UnauthorizedTransfer))
    else
      var fromBalance := Balance(s.balances, from);
      if fromBalance < amount then Step(s, Err(InsufficientBalance))
      else
        var debited := s.balances[from := fromBalance - amount];
        var balances := debited[to := Balance(debited, to) + amount];
        var tx := Transaction(Some(from), to, amount, now, TransferTx);
        Step(s.(balances := balances, transactions := s.transactions + [tx]), Ok(()))
  }

  /** `add_minter`: only the canister itself may authorize a minter. */
  function AddMinter(s: TokenState, caller: Principal, self: Principal, minter: Principal): (r: Step<TokenState, ()>)
    ensures r.result.Ok? <==> caller == self
    ensures r.result.Err? ==> r.result.error == Unauthorized && r.state == s
    ensures r.result.Ok? ==>
      && r.state.minters == s.minters + [minter]
      && minter in r.state.minters
      && r.state.balances == s.balances
      && r.state.metadata == s.metadata
      && r.state.transactions == s.transactions
  {
    if caller != self then Step(s, Err(Unauthorized))
    else Step(s.(minters := s.minters + [minter]), Ok(()))
  }

  lemma MintConserves(s: TokenState, caller: Principal, to: Account, amount: nat, now: nat)
    requires Conserved(s)
    ensures Conserved(Mint(s, caller, to, amount, now).state)
  {
    TotalUpdate(s.balances, to, Balance(s.balances, to) + amount);
  }

  lemma BurnConserves(s: TokenState, caller: Principal, from: Account, amount: nat, now: nat)
    requires Conserved(s)
    ensures Conserved(Burn(s, caller, from, amount, now).state)
  {
    if amount <= Balance(s.balances, from) {
      TotalUpdate(s.balances, from, Balance(s.balances, from) - amount);
    }
  }

  /** While the invariant holds, no balance exceeds the supply, so a burn never takes the
      supply below zero. */
  lemma {:induction false} BurnWithinSupply(s: TokenState, from: Account)
    requires Conserved(s)
    ensures Balance(s.balances, from) <= s.metadata.totalSupply
  {
    if from in s.balances {
      TotalRemove(s.balances, from);
    }
  }

  lemma TransferCorrectedConserves(s: TokenState, caller: Principal, from: Account, to: Account, amount: nat, now: nat)
    requires Conserved(s)
    ensures Conserved(TransferCorrected(s, caller, from, to, amount, now).state)
  {
    var fromBalance := Balance(s.balances, from);
    if from.owner == caller && amount <= fromBalance {
      var debited := s.balances[from := fromBalance - amount];
      TotalUpdate(s.balances, from, fromBalance - amount);
      TotalUpdate(debited, to, Balance(debited, to) + amount);
    }
  }

  /** Between distinct accounts the written transfer is the corrected one, so it conserves. */
  lemma TransferDistinctConserves(s: TokenState, caller: Principal, from: Account, to: Account, amount: nat, now: nat)
    requires Conserved(s)
    requires from != to
    ensures Conserved(Transfer(s, caller, from, to, amount, now).state)
  {
    var fromBalance := Balance(s.balances, from);
    if from.owner == caller && amount <= fromBalance {
      var debited := s.balances[from := fromBalance - amount];
      assert Balance(debited, to) == Balance(s.balances, to);
      assert Transfer(s, caller, from, to, amount, now) == TransferCorrected(s, caller, from, to, amount, now);
    }
    TransferCorrectedConserves(s, caller, from, to, amount, now);
  }

  /** A successful self-transfer of a positive amount breaks the supply invariant: the sum of
      balances exceeds the supply by exactly `amount`. */
  lemma SelfTransferInflates(s: TokenState, a: Account, amount: nat, now: nat)
    requires Conserved(s)
    requires 0 < amount <= Balance(s.balances, a)
    ensures var r := Transfer(s, a.owner, a, a, amount, now);
      && r.result.Ok?
      && Total(r.state.balances) == s.metadata.totalSupply + amount
      && !Conserved(r.state)
  {
    var b := Balance(s.balances, a);
    assert s.balances[a := b - amount][a := b + amount] == s.balances[a := b + amount];
    TotalUpdate(s.balances, a, b + amount);
  }

  /** From a fresh ledger: the canister authorizes a minter, which mints 100 to an account whose
      owner then sends 50 to itself. The account ends with 150 while the supply stays 100. */
  lemma SelfTransferExample(a: Account)
    ensures var s0 := AddMinter(New(), "ledger", "ledger", "vault").state;
      var s1 := Mint(s0, "vault", a, 100, 1).state;
      var s2 := Transfer(s1, a.owner, a, a, 50, 2).state;
      && Conserved(s1)
      && Balance(s2.balances, a) == 150
      && s2.metadata.totalSupply == 100
      && !Conserved(s2)
  {
    var s0 := AddMinter(New(), "ledger", "ledger", "vault").state;
    MintConserves(s0, "vault", a, 100, 1);
    var s1 := Mint(s0, "vault", a, 100, 1).state;
    SelfTransferInflates(s1, a, 50, 2);
  }

  /** Continuing that sequence, the minter burns the inflated 150: the burn is accepted and the
      supply goes below zero, which the source's unsigned decrement cannot represent. */
  lemma SelfTransferThenBurnUnderflows(a: Account)
    ensures var s0 := AddMinter(New(), "ledger", "ledger", "vault").state;
      var s1 := Mint(s0, "vault", a, 100, 1).state;
      var s2 := Transfer(s1, a.owner, a, a, 50, 2).state;
      var burnt := Burn(s2, "vault", a, 150, 3);
      && burnt.result.Ok?
      && burnt.state.metadata.totalSupply == -50
  {
    SelfTransferExample(a);
  }

  /** Adding a minter keeps the supply invariant, and the new minter's next mint is accepted and
      credits the recipient. */
  lemma AddMinterEnablesMint(s: TokenState, self: Principal, minter: Principal, to: Account, amount: nat, now: nat)
    requires Conserved(s)
    ensures var added := AddMinter(s, self, self, minter).state;
      && Conserved(added)
      && Mint(added, minter, to, amount, now).result.Ok?
      && Balance(Mint(added, minter, to, amount, now).state.balances, to) == Balance(s.balances, to) + amount
  {
  }
}

=== FILE: liquidation.dfy ===
/** The liquidation controller (src/liquidation.rs).

    The caller, the canister's own principal and the time are parameters. The two settlement
    legs (iUSD from the liquidator to the protocol, collateral to the liquidator) are
    inter-canister calls whose outcome is a boolean parameter each. The controller reads the
    vault controller but, as in the source, never writes it back: a liquidation does not
    reduce the vault's collateral or debt, and a failed collateral leg after a successful
    iUSD leg is not compensated. `Settlement` records what the two legs moved so that this
    "debt collected, collateral not sent" outcome is visible. */
module Liquidation {
  import opened Common
  import opened Vaults

  datatype LiquidationConfig = LiquidationConfig(
    bonus: nat,               // basis points
    maxAmount: nat,
    minAmount: nat,
    liquidators: seq<Principal>)

  datatype LiquidationEvent = LiquidationEvent(
    vaultId: nat,
    debtAmount: nat,
    collateralAmount: nat,
    liquidator: Principal,
    timestamp: nat,
    collateralType: CollateralType)

  datatype LiquidationController = LiquidationController(
    config: LiquidationConfig,
    events: seq<LiquidationEvent>)

  /** What the two settlement legs moved: iUSD taken from the liquidator, collateral sent to it. */
  datatype Settlement = Settlement(iusdCollected: nat, collateralSent: nat)

  datatype Attempt = Attempt(
    state: LiquidationController,
    result: Result<LiquidationEvent>,
    settled: Settlement)

  const NothingMoved := Settlement(0, 0)

  predicate Authorized(config: LiquidationConfig, p: Principal) {
    p in config.liquidators
  }

  /** Collateral to seize for a covered debt, bonus included. The source multiplies in f64
      and truncates; this is the exact integer version, rounded down. */
  function Seizure(debtToCover: nat, bonus: nat): (s: nat)
    ensures s >= debtToCover
    ensures s * BasisPoints <= debtToCover * (BasisPoints + bonus) < (s + 1) * BasisPoints
    ensures bonus == 0 ==> s == debtToCover
  {
    var s := debtToCover * (BasisPoints + bonus) / BasisPoints;
    assert debtToCover * (BasisPoints + bonus) == debtToCover * BasisPoints + debtToCover * bonus;
    DivMonotone(debtToCover * BasisPoints, debtToCover * (BasisPoints + bonus), BasisPoints);
    s
  }

  function Reject(lc: LiquidationController, e: Error): Attempt {
    Attempt(lc, Err(e), NothingMoved)
  }

  /** The call reaches the settlement legs: authorized caller, known vault that is liquidatable
      at call time, a successful second valuation, and a seizure inside the configured bounds. */
  predicate ReachesSettlement(lc: LiquidationController, vc: Controller, oracle: Oracle, caller: Principal,
                              vaultId: nat, debtToCover: nat, revaluation: Result<nat>)
  {
    && Authorized(lc.config, caller)
    && IsLiquidatable(vc, vaultId, oracle) == Ok(true)
    && revaluation.Ok?
    && lc.config.minAmount <= Seizure(debtToCover, lc.config.bonus) <= lc.config.maxAmount
  }

  /** `execute_liquidation`. `revaluation` is the outcome of the second collateral valuation the
      source performs; its value is not used, but its failure aborts the call. */
  function ExecuteLiquidation(lc: LiquidationController, vc: Controller, oracle: Oracle, caller: Principal,
                              vaultId: nat, debtToCover: nat, revaluation: Result<nat>,
                              iusdLegOk: bool, collateralLegOk: bool, now: nat): (a: Attempt)
    ensures a.result.Err? ==> a.state == lc
    ensures !Authorized(lc.config, caller) ==> a == Reject(lc, UnauthorizedLiquidator)
    ensures Authorized(lc.config, caller) && vaultId !in vc.vaults ==> a == Reject(lc, VaultNotFound)
    ensures Authorized(lc.config, caller) && IsLiquidatable(vc, vaultId, oracle) == Ok(false)
            ==> a == Reject(lc, NotLiquidatable)
    ensures Authorized(lc.config, caller) && IsLiquidatable(vc, vaultId, oracle) == Ok(true) && revaluation.Ok?
            && !(lc.config.minAmount <= Seizure(debtToCover, lc.config.bonus) <= lc.config.maxAmount)
            ==> a == Reject(lc, InvalidLiquidationAmount)
    ensures !ReachesSettlement(lc, vc, oracle, caller, vaultId, debtToCover, revaluation)
            ==> a.result.Err? && a.settled == NothingMoved
    ensures ReachesSettlement(lc, vc, oracle, caller, vaultId, debtToCover, revaluation) && !iusdLegOk
            ==> a == Reject(lc, IusdTransferFailed)
    // no compensation: the iUSD stays collected when the collateral leg fails
    ensures ReachesSettlement(lc, vc, oracle, caller, vaultId, debtToCover, revaluation) && iusdLegOk && !collateralLegOk
            ==> a == Attempt(lc, Err(CollateralTransferFailed), Settlement(debtToCover, 0))
    ensures a.result.Ok? <==>
      ReachesSettlement(lc, vc, oracle, caller, vaultId, debtToCover, revaluation) && iusdLegOk && collateralLegOk
    ensures a.result.Ok? ==>
      && vaultId in vc.vaults
      && lc.config.minAmount <= a.result.value.collateralAmount <= lc.config.maxAmount
      && a.result.value.collateralAmount >= debtToCover
      && a.result.value == LiquidationEvent(vaultId, debtToCover, Seizure(debtToCover, lc.config.bonus), caller, now,
                                            vc.vaults[vaultId].collateralType)
      && a.state.events == lc.events + [a.result.value]
      && a.state.config == lc.config
      && a.settled == Settlement(debtToCover, a.result.value.collateralAmount)
  {
    if !Authorized(lc.config, caller) then Reject(lc, UnauthorizedLiquidator)
    else if vaultId !in vc.vaults then Reject(lc, VaultNotFound)
    else match IsLiquidatable(vc, vaultId, oracle)
      case Err(e) => Reject(lc, e)
      case Ok(eligible) =>
        if !eligible then Reject(lc, NotLiquidatable)
        else if revaluation.Err? then Reject(lc, revaluation.error)
        else
          var seize := Seizure(debtToCover, lc.config.bonus);
          if seize > lc.config.maxAmount || seize < lc.config.minAmount then Reject(lc, InvalidLiquidationAmount)
          else if !iusdLegOk then Reject(lc, IusdTransferFailed)
          else if !collateralLegOk then Attempt(lc, Err(CollateralTransferFailed), Settlement(debtToCover, 0))
          else
            var event := LiquidationEvent(vaultId, debtToCover, seize, caller, now, vc.vaults[vaultId].collateralType);
            Attempt(lc.(events := lc.events + [event]), Ok(event), Settlement(debtToCover, seize))
  }

  /** Since the vault is never written back, a successful liquidation can be repeated at once
      with the same arguments: the vault is still liquidatable and a second event is logged. */
  lemma LiquidationRepeats(lc: LiquidationController, vc: Controller, oracle: Oracle, caller: Principal,
                           vaultId: nat, debtToCover: nat, revaluation: Result<nat>, now: nat, later: nat)
    requires ExecuteLiquidation(lc, vc, oracle, caller, vaultId, debtToCover, revaluation, true, true, now).result.Ok?
    ensures var first := ExecuteLiquidation(lc, vc, oracle, caller, vaultId, debtToCover, revaluation, true, true, now);
            var second := ExecuteLiquidation(first.state, vc, oracle, caller, vaultId, debtToCover, revaluation, true, true, later);
            && second.result.Ok?
            && |second.state.events| == |lc.events| + 2
            && second.settled.iusdCollected + first.settled.iusdCollected == 2 * debtToCover
  {
  }

  /** `scan_vaults`: walks the vault ids in the map's iteration order `order` and collects the
      liquidatable ones; the first valuation error aborts the whole scan. */
  method ScanVaults(vc: Controller, oracle: Oracle, order: seq<nat>) returns (r: Result<seq<nat>>)
    requires forall i :: 0 <= i < |order| ==> order[i] in vc.vaults
    requires forall id :: id in vc.vaults ==> id in order
    ensures r.Ok? <==> forall id :: id in vc.vaults ==> IsLiquidatable(vc, id, oracle).Ok?
    ensures r.Ok? ==> forall id :: id in r.value <==> id in vc.vaults && IsLiquidatable(vc, id, oracle) == Ok(true)
    ensures r.Err? ==> exists id :: id in vc.vaults && IsLiquidatable(vc, id, oracle) == Err(r.error)
  {
    var found: seq<nat> := [];
    var i := 0;
    while i < |order|
      invariant 0 <= i <= |order|
      invariant forall k :: 0 <= k < i ==> IsLiquidatable(vc, order[k], oracle).Ok?
      invariant forall id :: id in found <==> id in order[..i] && IsLiquidatable(vc, id, oracle) == Ok(true)
    {
      var id := order[i];
      var answer := IsLiquidatable(vc, id, oracle);
      if answer.Err? {
        return Err(answer.error);
      }
      if answer.value {
        found := found + [id];
      }
      assert order[..i + 1] == order[..i] + [id];
      i := i + 1;
    }
    assert order[..i] == order;
    r := Ok(found);
  }

  /** `update_liquidation_config`: only the canister itself may replace the configuration. */
  function UpdateLiquidationConfig(lc: LiquidationController, caller: Principal, self: Principal,
                                   newConfig: LiquidationConfig): (r: Step<LiquidationController, ()>)
    ensures r.result.Ok? <==> caller == self
    ensures r.result.Err? ==> r.result.error == Unauthorized && r.state == lc
    ensures r.result.Ok? ==> r.state.config == newConfig && r.state.events == lc.events
  {
    if caller != self then Step(lc, Err(Unauthorized))
    else Step(lc.(config := newConfig), Ok(()))
  }

  /** `add_liquidator`: only the canister itself may whitelist a principal. */
  function AddLiquidator(lc: LiquidationController, caller: Principal, self: Principal,
                         liquidator: Principal): (r: Step<LiquidationController, ()>)
    ensures r.result.Ok? <==> caller == self
    ensures r.result.Err? ==> r.result.error == Unauthorized && r.state == lc
    ensures r.result.Ok? ==>
      && Authorized(r.state.config, liquidator)
      && r.state.config.liquidators == lc.config.liquidators + [liquidator]
      && r.state.config.bonus == lc.config.bonus
      && r.state.config.minAmount == lc.config.minAmount
      && r.state.config.maxAmount == lc.config.maxAmount
      && r.state.events == lc.events
      && forall p :: Authorized(lc.config, p) ==> Authorized(r.state.config, p)
  {
    if caller != self then Step(lc, Err(Unauthorized))
    else Step(lc.(config := lc.config.(liquidators := lc.config.liquidators + [liquidator])), Ok(()))
  }

  /** Once added, a liquidator passes the whitelist: its calls are judged only by the vault,
      the valuations, the bounds and the two legs, exactly as for any authorised caller. */
  lemma AddLiquidatorAuthorizes(lc: LiquidationController, vc: Controller, oracle: Oracle, self: Principal,
                                p: Principal, vaultId: nat, debtToCover: nat, revaluation: Result<nat>,
                                iusdLegOk: bool, collateralLegOk: bool, now: nat)
    ensures var added := AddLiquidator(lc, self, self, p).state;
      var a := ExecuteLiquidation(added, vc, oracle, p, vaultId, debtToCover, revaluation, iusdLegOk, collateralLegOk, now);
      && (vaultId !in vc.vaults ==> a.result == Err(VaultNotFound))
      && (a.result.Ok? <==>
            && IsLiquidatable(vc, vaultId, oracle) == Ok(true)
            && revaluation.Ok?
            && lc.config.minAmount <= Seizure(debtToCover, lc.config.bonus) <= lc.config.maxAmount
            && iusdLegOk && collateralLegOk)
  {
  }

  /** After a configuration update, the next liquidation is judged by the new whitelist, bonus
      and bounds, and seizes according to the new bonus. */
  lemma UpdatedConfigGoverns(lc: LiquidationController, vc: Controller, oracle: Oracle, self: Principal,
                             config: LiquidationConfig, caller: Principal, vaultId: nat, debtToCover: nat,
                             revaluation: Result<nat>, iusdLegOk: bool, collateralLegOk: bool, now: nat)
    ensures var updated := UpdateLiquidationConfig(lc, self, self, config).state;
      var a := ExecuteLiquidation(updated, vc, oracle, caller, vaultId, debtToCover, revaluation, iusdLegOk, collateralLegOk, now);
      && (caller !in config.liquidators ==> a.result == Err(UnauthorizedLiquidator))
      && (a.result.Ok? <==>
            && caller in config.liquidators
            && IsLiquidatable(vc, vaultId, oracle) == Ok(true)
            && revaluation.Ok?
            && config.minAmount <= Seizure(debtToCover, config.bonus) <= config.maxAmount
            && iusdLegOk && collateralLegOk)
      && (a.result.Ok? ==> a.result.value.collateralAmount == Seizure(debtToCover, config.bonus))
  {
  }
}

=== FILE: price_feed.dfy ===
/** The price aggregation rule (`aggregate_prices` in src/price_feed.rs).

    Prices are exact reals rather than f64, so the arithmetic here is the ideal one; the
    threshold 0.05 is exactly one twentieth. The clock reading is the parameter `now`. */
module PriceFeed {
  import opened Common

  datatype PriceData = PriceData(price: real, timestamp: nat, source: string)

  datatype AggregatedPrice = AggregatedPrice(
    price: real,
    timestamp: nat,
    sourcesUsed: nat,        // a u8 in the source
    maxDeviation: real)

  const MaxPriceAgeSeconds: nat := 300
  const MaxDeviationThreshold: real := 0.05

  /** The source subtracts timestamps as u64, so it needs every quote to be no later than now;
      the median is a divisor, so prices are positive. */
  predicate WellFormed(quotes: seq<PriceData>, now: nat) {
    forall q :: q in quotes ==> q.timestamp <= now && q.price > 0.0
  }

  predicate IsFresh(q: PriceData, now: nat) {
    now - q.timestamp <= MaxPriceAgeSeconds
  }

  /** Positions of the quotes that pass the age filter. */
  ghost function FreshIndices(quotes: seq<PriceData>, now: nat): set<nat> {
    set i: nat | i < |quotes| && IsFresh(quotes[i], now)
  }

  /** Every index moved one place to the right. */
  ghost function Shift(t: set<nat>): set<nat> {
    set j | j in t :: j + 1
  }

  lemma {:induction false} ShiftCard(t: set<nat>)
    ensures |Shift(t)| == |t|
    decreases t
  {
    if exists x :: x in t {
      var x :| x in t;
      var t' := t - {x};
      ShiftCard(t');
      forall y | y in Shift(t) ensures y in Shift(t') + {x + 1} {
        var j :| j in t && y == j + 1;
        if j != x { assert j in t'; }
      }
      forall y | y in Shift(t') + {x + 1} ensures y in Shift(t) {
        if y != x + 1 {
          var j :| j in t' && y == j + 1;
        }
      }
      assert Shift(t) == Shift(t') + {x + 1};
      assert x + 1 !in Shift(t');
    } else {
      assert t == {};
      assert Shift(t) == {};
    }
  }

  /** The fresh positions of a non-empty list: possibly 0, then those of its tail, shifted. */
  lemma FreshIndicesSplit(quotes: seq<PriceData>, now: nat)
    requires quotes != []
    ensures FreshIndices(quotes, now)
         == (if IsFresh(quotes[0], now) then {0} else {}) + Shift(FreshIndices(quotes[1..], now))
    ensures 0 !in Shift(FreshIndices(quotes[1..], now))
  {
    var l, r := FreshIndices(quotes, now), (if IsFresh(quotes[0], now) then {0} else {}) + Shift(FreshIndices(quotes[1..], now));
    forall i | i in l ensures i in r {
      if i > 0 {
        assert quotes[1..][i - 1] == quotes[i];
        assert i - 1 in FreshIndices(quotes[1..], now);
      }
    }
    forall i | i in r ensures i in l {
      if i > 0 {
        var j :| j in FreshIndices(quotes[1..], now) && i == j + 1;
        assert quotes[1..][j] == quotes[i];
      }
    }
  }


  /** Prices of the quotes that survive the age filter, in input order. */
  function FreshPrices(quotes: seq<PriceData>, now: nat): (ps: seq<real>)
    ensures |ps| <= |quotes|
    ensures forall i :: 0 <= i < |quotes| && IsFresh(quotes[i], now) ==> quotes[i].price in ps
    ensures forall p :: p in ps ==> exists q :: q in quotes && IsFresh(q, now) && q.price == p
  {
    if quotes == [] then []
    else
      var rest := FreshPrices(quotes[1..], now);
      assert forall q :: q in quotes[1..] ==> q in quotes;
      if IsFresh(quotes[0], now) then [quotes[0].price] + rest else rest
  }

  /** One price survives per fresh quote, duplicates included. */
  lemma {:induction false} FreshPricesCount(quotes: seq<PriceData>, now: nat)
    ensures |FreshPrices(quotes, now)| == |FreshIndices(quotes, now)|
  {
    if quotes == [] {
      assert FreshIndices(quotes, now) == {};
    } else {
      FreshPricesCount(quotes[1..], now);
      FreshIndicesSplit(quotes, now);
      ShiftCard(FreshIndices(quotes[1..], now));
    }
  }

  lemma {:induction false} FreshPricesAppend(a: seq<PriceData>, b: seq<PriceData>, now: nat)
    ensures FreshPrices(a + b, now) == FreshPrices(a, now) + FreshPrices(b, now)
  {
    if a == [] {
      assert a + b == b;
    } else {
      assert (a + b)[1..] == a[1..] + b;
      FreshPricesAppend(a[1..], b, now);
    }
  }

  /** Which prices survive depends only on the multiset of quotes, not on their order. */
  lemma {:induction false} FreshPricesPermutation(q1: seq<PriceData>, q2: seq<PriceData>, now: nat)
    requires multiset(q1) == multiset(q2)
    ensures multiset(FreshPrices(q1, now)) == multiset(FreshPrices(q2, now))
    decreases |q1|
  {
    if q1 == [] {
      assert |q2| == |multiset(q2)| == 0;
    } else {
      var j := IndexOf(q2, q1[0]);
      TailsPermuted(q1, q2, j);
      FreshPricesPermutation(q1[1..], q2[..j] + q2[j + 1..], now);
      FreshPricesMoveOne(q1, q2, j, now);
    }
  }

  /** Setting aside the head of `q1` and the same element of `q2` leaves two permutations. */
  lemma TailsPermuted<T>(q1: seq<T>, q2: seq<T>, j: nat)
    requires multiset(q1) == multiset(q2)
    requires q1 != [] && j < |q2| && q2[j] == q1[0]
    ensures multiset(q1[1..]) == multiset(q2[..j] + q2[j + 1..])
  {
    assert q1[..0] + q1[1..] == q1[1..];
    MultisetRemoveAt(q1, 0);
    MultisetRemoveAt(q2, j);
  }

  /** If the fresh prices agree once the first quote of `q1` and the same quote at position
      `j` of `q2` are set aside, they agree on the whole lists. */
  lemma FreshPricesMoveOne(q1: seq<PriceData>, q2: seq<PriceData>, j: nat, now: nat)
    requires q1 != [] && j < |q2| && q2[j] == q1[0]
    requires multiset(FreshPrices(q1[1..], now)) == multiset(FreshPrices(q2[..j] + q2[j + 1..], now))
    ensures multiset(FreshPrices(q1, now)) == multiset(FreshPrices(q2, now))
  {
    var head := multiset(FreshPrices([q1[0]], now));
    calc {
      multiset(FreshPrices(q1, now));
      == { FreshPricesHead(q1, now); }
      head + multiset(FreshPrices(q1[1..], now));
      == head + multiset(FreshPrices(q2[..j] + q2[j + 1..], now));
      == { FreshPricesRemoveAt(q2, j, now); }
      multiset(FreshPrices(q2, now));
    }
  }

  lemma FreshPricesHead(s: seq<PriceData>, now: nat)
    requires s != []
    ensures multiset(FreshPrices(s, now)) == multiset(FreshPrices([s[0]], now)) + multiset(FreshPrices(s[1..], now))
  {
    assert [s[0]][1..] == [];
  }

  /** A position at which a member of the multiset occurs. */
  lemma IndexOf<T>(s: seq<T>, x: T) returns (j: nat)
    requires x in multiset(s)
    ensures j < |s| && s[j] == x
  {
    j :| j < |s| && s[j] == x;
  }

  lemma MultisetRemoveAt<T>(s: seq<T>, j: nat)
    requires j < |s|
    ensures multiset(s[..j] + s[j + 1..]) == multiset(s) - multiset{s[j]}
  {
    assert s == s[..j] + ([s[j]] + s[j + 1..]);
  }

  /** Taking one quote out of the list takes its price, if fresh, out of the fresh prices. */
  lemma FreshPricesRemoveAt(s: seq<PriceData>, j: nat, now: nat)
    requires j < |s|
    ensures multiset(FreshPrices(s, now))
         == multiset(FreshPrices([s[j]], now)) + multiset(FreshPrices(s[..j] + s[j + 1..], now))
  {
    assert s == s[..j] + ([s[j]] + s[j + 1..]);
    FreshPricesAppend(s[..j], [s[j]] + s[j + 1..], now);
    FreshPricesAppend([s[j]], s[j + 1..], now);
    FreshPricesAppend(s[..j], s[j + 1..], now);
  }

  predicate Sorted(s: seq<real>) {
    forall i, j :: 0 <= i < j < |s| ==> s[i] <= s[j]
  }

  function Insert(x: real, s: seq<real>): (r: seq<real>)
    requires Sorted(s)
    ensures Sorted(r)
    ensures forall y :: y in r <==> y == x || y in s
    ensures multiset(r) == multiset(s) + multiset{x}
  {
    if s == [] || x <= s[0] then
      InsertFront(x, s);
      [x] + s
    else
      SortedTail(s);
      var t := Insert(x, s[1..]);
      InsertBehind(x, s, t);
      [s[0]] + t
  }

  lemma SortedTail(s: seq<real>)
    requires Sorted(s) && s != []
    ensures Sorted(s[1..])
  {
  }

  lemma InsertFront(x: real, s: seq<real>)
    requires Sorted(s) && (s == [] || x <= s[0])
    ensures Sorted([x] + s)
  {
  }

  /** Putting the head of `s` in front of the insertion into its tail keeps everything. */
  lemma InsertBehind(x: real, s: seq<real>, t: seq<real>)
    requires Sorted(s) && s != [] && s[0] < x
    requires Sorted(t)
    requires forall y :: y in t <==> y == x || y in s[1..]
    requires multiset(t) == multiset(s[1..]) + multiset{x}
    ensures Sorted([s[0]] + t)
    ensures forall y :: y in [s[0]] + t <==> y == x || y in s
    ensures multiset([s[0]] + t) == multiset(s) + multiset{x}
  {
    forall k | 0 <= k < |t| ensures s[0] <= t[k] {
      assert t[k] in t;
      if t[k] != x {
        assert t[k] in s[1..];
      }
    }
    assert s == [s[0]] + s[1..];
  }

  /** The source's `sort_by` on `partial_cmp`; a total order on reals. */
  function Sort(s: seq<real>): (r: seq<real>)
    ensures Sorted(r)
    ensures multiset(r) == multiset(s)
  {
    if s == [] then []
    else
      assert s == [s[0]] + s[1..];
      Insert(s[0], Sort(s[1..]))
  }

  lemma MultisetSplitHead<T>(a: seq<T>)
    requires a != []
    ensures multiset(a) == multiset{a[0]} + multiset(a[1..])
  {
    assert a == [a[0]] + a[1..];
  }

  /** The head of a sorted sequence is at most each of its elements. */
  lemma SortedHeadIsLeast(a: seq<real>, x: real)
    requires Sorted(a) && x in multiset(a)
    ensures a != [] && a[0] <= x
  {
    var k :| 0 <= k < |a| && a[k] == x;
  }

  /** There is only one sorted arrangement of a multiset. */
  lemma {:induction false} SortedUnique(a: seq<real>, b: seq<real>)
    requires Sorted(a) && Sorted(b)
    requires multiset(a) == multiset(b)
    ensures a == b
    decreases |a|
  {
    assert |a| == |multiset(a)| == |multiset(b)| == |b|;
    if a != [] {
      SortedHeadIsLeast(b, a[0]);
      SortedHeadIsLeast(a, b[0]);
      SameTailMultiset(a, b);
      SortedTail(a);
      SortedTail(b);
      SortedUnique(a[1..], b[1..]);
      HeadTailEqual(a, b);
    }
  }

  lemma SameTailMultiset(a: seq<real>, b: seq<real>)
    requires a != [] && b != [] && a[0] == b[0]
    requires multiset(a) == multiset(b)
    ensures multiset(a[1..]) == multiset(b[1..])
  {
    MultisetSplitHead(a);
    MultisetSplitHead(b);
    assert multiset(a[1..]) == multiset(a) - multiset{a[0]};
    assert multiset(b[1..]) == multiset(b) - multiset{b[0]};
  }

  lemma HeadTailEqual(a: seq<real>, b: seq<real>)
    requires a != [] && b != [] && a[0] == b[0] && a[1..] == b[1..]
    ensures a == b
  {
    assert a == [a[0]] + a[1..];
    assert b == [b[0]] + b[1..];
  }

  lemma SortPermutation(s: seq<real>, t: seq<real>)
    requires multiset(s) == multiset(t)
    ensures Sort(s) == Sort(t)
  {
    SortedUnique(Sort(s), Sort(t));
  }

  /** Middle element for an odd count, mean of the two middle elements for an even count. */
  function Median(s: seq<real>): (m: real)
    requires |s| >= 1 && Sorted(s)
    ensures s[0] <= m <= s[|s| - 1]
  {
    if |s| % 2 == 0 then (s[|s| / 2 - 1] + s[|s| / 2]) / 2.0 else s[|s| / 2]
  }

  function MedianOf(ps: seq<real>): real
    requires |ps| >= 1
  {
    Median(Sort(ps))
  }

  function Abs(x: real): real {
    if x < 0.0 then -x else x
  }

  function Deviation(p: real, m: real): real
    requires m > 0.0
  {
    Abs(p - m) / m
  }

  /** Largest relative deviation from `m` over a non-empty sequence of prices. */
  function MaxDeviation(s: seq<real>, m: real): (d: real)
    requires |s| >= 1 && m > 0.0
    ensures forall i :: 0 <= i < |s| ==> Deviation(s[i], m) <= d
    ensures exists i :: 0 <= i < |s| && d == Deviation(s[i], m)
  {
    if |s| == 1 then Deviation(s[0], m)
    else
      var rest := MaxDeviation(s[1..], m);
      assert forall i :: 1 <= i < |s| ==> s[i] == s[1..][i - 1];
      if Deviation(s[0], m) >= rest then Deviation(s[0], m) else rest
  }

  /** For a positive median, a relative bound is the same as an absolute one. */
  lemma DeviationBound(p: real, m: real, t: real)
    requires m > 0.0
    ensures Deviation(p, m) >= 0.0
    ensures Deviation(p, m) <= t <==> Abs(p - m) <= t * m
  {
    var x := Abs(p - m);
    var d := x / m;
    assert x == d * m;
    if d <= t {
      assert d * m <= t * m;
    }
    if x <= t * m {
      assert d * m <= t * m;
    }
  }

  /** Every price lies within 5% of `m`. */
  predicate WithinThresholdOf(ps: seq<real>, m: real) {
    forall p :: p in ps ==> Abs(p - m) <= MaxDeviationThreshold * m
  }

  /** All valid prices lie within 5% of their median. */
  predicate WithinThreshold(ps: seq<real>)
    requires |ps| >= 1
  {
    WithinThresholdOf(ps, MedianOf(ps))
  }

  lemma MedianPositive(ps: seq<real>)
    requires |ps| >= 1
    requires forall p :: p in ps ==> p > 0.0
    ensures MedianOf(ps) > 0.0
  {
    var s := Sort(ps);
    assert s[0] in multiset(ps);
    assert s[0] in ps;
  }

  /** The median lies between the smallest and the largest price. */
  lemma MedianBetween(ps: seq<real>)
    requires |ps| >= 1
    ensures exists i :: 0 <= i < |ps| && ps[i] <= MedianOf(ps)
    ensures exists j :: 0 <= j < |ps| && MedianOf(ps) <= ps[j]
  {
    var s := Sort(ps);
    assert s[0] in multiset(ps) && s[|s| - 1] in multiset(ps);
    var i :| 0 <= i < |ps| && ps[i] == s[0];
    var j :| 0 <= j < |ps| && ps[j] == s[|s| - 1];
  }

  /** What an accepted aggregate reports about the valid prices: their median as the price,
      the largest relative deviation from it (which some price attains and which passed the
      gate), their number as a u8, and the time of aggregation. */
  ghost predicate Reports(a: AggregatedPrice, valid: seq<real>, now: nat)
    requires |valid| >= 1
  {
    && a.price == MedianOf(valid)
    && a.price > 0.0
    && (forall p :: p in valid ==> Deviation(p, a.price) <= a.maxDeviation)
    && (exists p :: p in valid && a.maxDeviation == Deviation(p, a.price))
    && 0.0 <= a.maxDeviation <= MaxDeviationThreshold
    && a.sourcesUsed == |valid| % 256
    && a.timestamp == now
  }

  /** The three outcomes of aggregating the valid prices: too few of them, too wide a spread,
      or a report of their median. */
  ghost predicate Aggregates(r: Result<AggregatedPrice>, valid: seq<real>, now: nat) {
    && (|valid| < 2 <==> r == Err(InsufficientValidPriceSources))
    && (r.Ok? <==> |valid| >= 2 && WithinThreshold(valid))
    && (|valid| >= 2 && !WithinThreshold(valid) ==> r == Err(PriceDeviationTooHigh))
    && (r.Ok? ==> |valid| >= 2 && Reports(r.value, valid, now))
  }

  /** Aggregation of the prices that passed the age filter. */
  function AggregateValid(valid: seq<real>, now: nat): (r: Result<AggregatedPrice>)
    requires forall p :: p in valid ==> p > 0.0
    ensures Aggregates(r, valid, now)
  {
    if |valid| < 2 then Err(InsufficientValidPriceSources)
    else
      var sorted := Sort(valid);
      MedianPositive(valid);
      var median := Median(sorted);
      var deviation := MaxDeviation(sorted, median);
      MaxDeviationOfValid(valid, sorted, median, deviation);
      AggregateDeviationCheck(valid, median, deviation);
      if deviation > MaxDeviationThreshold then Err(PriceDeviationTooHigh)
      else Ok(AggregatedPrice(median, now, |valid| % 256, deviation))
  }

  /** `aggregate_prices`: age filter, quorum of two, median, deviation gate. */
  function AggregatePrices(quotes: seq<PriceData>, now: nat): (r: Result<AggregatedPrice>)
    requires WellFormed(quotes, now)
    ensures Aggregates(r, FreshPrices(quotes, now), now)
    ensures |FreshIndices(quotes, now)| < 2 <==> r == Err(InsufficientValidPriceSources)
    ensures r.Ok? ==> r.value.sourcesUsed == |FreshIndices(quotes, now)| % 256
    ensures r.Ok? ==> PriceAmongFresh(r.value.price, FreshPrices(quotes, now))
  {
    var valid := FreshPrices(quotes, now);
    FreshPricesCount(quotes, now);
    FreshPositive(quotes, now);
    var r := AggregateValid(valid, now);
    if r.Ok? then ReportedPriceBetween(r.value, valid, now); r else r
  }

  /** Every fresh price of well-formed quotes is positive. */
  lemma FreshPositive(quotes: seq<PriceData>, now: nat)
    requires WellFormed(quotes, now)
    ensures forall p :: p in FreshPrices(quotes, now) ==> p > 0.0
  {
  }

  /** A price between the smallest and the largest of `valid` and within 5% of each. */
  ghost predicate PriceAmongFresh(price: real, valid: seq<real>) {
    && (exists i :: 0 <= i < |valid| && valid[i] <= price)
    && (exists j :: 0 <= j < |valid| && price <= valid[j])
    && (forall p :: p in valid ==> Abs(p - price) <= MaxDeviationThreshold * price)
  }

  /** The reported price lies between the smallest and the largest valid price, and every
      valid price is within 5% of it. */
  lemma ReportedPriceBetween(a: AggregatedPrice, valid: seq<real>, now: nat)
    requires |valid| >= 2 && Reports(a, valid, now) && WithinThreshold(valid)
    ensures PriceAmongFresh(a.price, valid)
  {
    MedianBetween(valid);
  }

  /** The maximum taken over the sorted prices is the maximum over the valid prices. */
  lemma MaxDeviationOfValid(valid: seq<real>, sorted: seq<real>, median: real, deviation: real)
    requires |sorted| >= 1 && multiset(sorted) == multiset(valid) && median > 0.0
    requires deviation == MaxDeviation(sorted, median)
    ensures forall p :: p in valid ==> Deviation(p, median) <= deviation
    ensures exists p :: p in valid && deviation == Deviation(p, median)
  {
    forall p | p in valid ensures Deviation(p, median) <= deviation {
      assert p in multiset(sorted);
      var i :| 0 <= i < |sorted| && sorted[i] == p;
    }
    var k :| 0 <= k < |sorted| && deviation == Deviation(sorted[k], median);
    assert sorted[k] in multiset(valid);
  }

  /** The maximum deviation over the sorted prices is within the threshold exactly when every
      valid price is within 5% of the median. */
  lemma AggregateDeviationCheck(valid: seq<real>, median: real, deviation: real)
    requires median > 0.0
    requires forall p :: p in valid ==> Deviation(p, median) <= deviation
    requires exists p :: p in valid && deviation == Deviation(p, median)
    ensures deviation >= 0.0
    ensures deviation <= MaxDeviationThreshold <==> WithinThresholdOf(valid, median)
  {
    var q :| q in valid && deviation == Deviation(q, median);
    DeviationBound(q, median, MaxDeviationThreshold);
    if deviation <= MaxDeviationThreshold {
      forall p | p in valid
        ensures Abs(p - median) <= MaxDeviationThreshold * median
      {
        assert Deviation(p, median) <= MaxDeviationThreshold;
        DeviationBound(p, median, MaxDeviationThreshold);
      }
    } else {
      var p :| p in valid && deviation == Deviation(p, median);
      DeviationBound(p, median, MaxDeviationThreshold);
      assert !(Abs(p - median) <= MaxDeviationThreshold * median);
    }
  }

  /** Aggregation does not depend on the order in which the sources answered. */
  lemma AggregateOrderIndependent(q1: seq<PriceData>, q2: seq<PriceData>, now: nat)
    requires WellFormed(q1, now)
    requires multiset(q1) == multiset(q2)
    ensures WellFormed(q2, now)
    ensures AggregatePrices(q1, now) == AggregatePrices(q2, now)
  {
    forall q | q in q2 ensures q in q1 {
      assert q in multiset(q1);
    }
    FreshPricesPermutation(q1, q2, now);
    var f1, f2 := FreshPrices(q1, now), FreshPrices(q2, now);
    assert |f1| == |multiset(f1)| == |multiset(f2)| == |f2|;
    SortPermutation(f1, f2);
  }

  /** With two valid quotes the median is their midpoint, so the pair is rejected only when
      half its spread exceeds 5% of the midpoint. */
  lemma TwoQuotes(a: real, b: real)
    requires 0.0 < a <= b
    ensures MedianOf([a, b]) == (a + b) / 2.0
    ensures WithinThreshold([a, b]) <==> (b - a) / 2.0 <= MaxDeviationThreshold * ((a + b) / 2.0)
  {
    TwoSort(a, b);
    var m := (a + b) / 2.0;
    assert MedianOf([a, b]) == m;
    assert Abs(a - m) == (b - a) / 2.0 && Abs(b - m) == (b - a) / 2.0;
    if (b - a) / 2.0 <= MaxDeviationThreshold * m {
      forall p | p in [a, b]
        ensures Abs(p - m) <= MaxDeviationThreshold * m
      {
        assert p == a || p == b;
      }
    }
    if WithinThresholdOf([a, b], m) {
      assert b in [a, b];
    }
  }

  lemma TwoSort(a: real, b: real)
    requires a <= b
    ensures Sort([a, b]) == [a, b]
  {
    assert Sort([b]) == [b] by { assert [b][1..] == []; }
    assert [a, b][1..] == [b];
    assert Insert(a, [b]) == [a, b];
  }

  lemma SortExample()
    ensures Sort([100.0, 102.0, 98.0]) == [98.0, 100.0, 102.0]
  {
    SortDescendingPair(102.0, 98.0);
    SortCons(100.0, [102.0, 98.0]);
    assert [100.0] + [102.0, 98.0] == [100.0, 102.0, 98.0];
    InsertMiddle(98.0, 100.0, 102.0);
  }

  lemma SortSingle(x: real)
    ensures Sort([x]) == [x]
  {
    SortCons(x, []);
    assert [x] + [] == [x];
  }

  lemma SortDescendingPair(a: real, b: real)
    requires b < a
    ensures Sort([a, b]) == [b, a]
  {
    SortSingle(b);
    SortCons(a, [b]);
    assert [a] + [b] == [a, b];
    InsertPast(a, [b]);
    assert [b][1..] == [];
  }

  lemma InsertMiddle(a: real, b: real, c: real)
    requires a < b <= c
    ensures Insert(b, [a, c]) == [a, b, c]
  {
    InsertPast(b, [a, c]);
    assert [a, c][1..] == [c];
  }

  lemma SortCons(x: real, s: seq<real>)
    ensures Sort([x] + s) == Insert(x, Sort(s))
  {
    assert ([x] + s)[1..] == s;
  }

  /** Insertion behind a smaller head. */
  lemma InsertPast(x: real, s: seq<real>)
    requires Sorted(s) && s != [] && s[0] < x
    ensures Insert(x, s) == [s[0]] + Insert(x, s[1..])
  {
  }

  /** Medians for an odd and an even count. */
  lemma MedianExamples()
    ensures MedianOf([100.0, 102.0, 98.0]) == 100.0
    ensures MedianOf([100.0, 110.0]) == 105.0
  {
    SortExample();
    assert Median([98.0, 100.0, 102.0]) == 100.0;
    TwoQuotes(100.0, 110.0);
  }

  /** Deviation is measured against the median: 100 and 106 are 3/103 away from it, so the
      pair is accepted; 100 and 120 are not. One valid quote beside a stale one is too few. */
  lemma AggregateExamples()
    ensures AggregatePrices([PriceData(100.0, 1000, "a"), PriceData(106.0, 1000, "b")], 1000).Ok?
    ensures AggregatePrices([PriceData(100.0, 1000, "a"), PriceData(106.0, 1000, "b")], 1000).value.price == 103.0
    ensures AggregatePrices([PriceData(100.0, 1000, "a"), PriceData(120.0, 1000, "b")], 1000) == Err(PriceDeviationTooHigh)
    ensures AggregatePrices([PriceData(100.0, 1000, "a"), PriceData(100.0, 699, "b")], 1000) == Err(InsufficientValidPriceSources)
  {
    AcceptedPair();
    RejectedPair();
    StalePair();
  }

  lemma AcceptedPair()
    ensures var r := AggregatePrices([PriceData(100.0, 1000, "a"), PriceData(106.0, 1000, "b")], 1000);
      r.Ok? && r.value.price == 103.0
  {
    var ok := [PriceData(100.0, 1000, "a"), PriceData(106.0, 1000, "b")];
    assert FreshPrices(ok, 1000) == [100.0, 106.0];
    TwoQuotes(100.0, 106.0);
  }

  lemma RejectedPair()
    ensures AggregatePrices([PriceData(100.0, 1000, "a"), PriceData(120.0, 1000, "b")], 1000) == Err(PriceDeviationTooHigh)
  {
    var bad := [PriceData(100.0, 1000, "a"), PriceData(120.0, 1000, "b")];
    assert FreshPrices(bad, 1000) == [100.0, 120.0];
    TwoQuotes(100.0, 120.0);
    assert 120.0 in FreshPrices(bad, 1000);
  }

  lemma StalePair()
    ensures AggregatePrices([PriceData(100.0, 1000, "a"), PriceData(100.0, 699, "b")], 1000) == Err(InsufficientValidPriceSources)
  {
    var stale := [PriceData(100.0, 1000, "a"), PriceData(100.0, 699, "b")];
    assert FreshPrices(stale, 1000) == [100.0];
  }
}

=== FILE: vault_system.dfy ===
/** The vault ledger and its risk checks (`VaultController` in src/vault_system.rs).

    The USD valuation of collateral goes through the price feed and floating point in the
    source; here it is an `Oracle` parameter that either values an amount of collateral in
    iUSD base units (8 decimals) or fails with the price feed's error. The outcome of the
    inter-canister mint and burn calls, and whether the vault owner's text parses as a
    principal, are boolean parameters. `now` stands for `ic_cdk::api::time()`. */
module Vaults {
  import opened Common

  datatype CollateralType = ICP | CkBTC | CkETH

  datatype Vault = Vault(
    owner: string,
    collateral: nat,
    collateralType: CollateralType,
    debt: nat,
    lastUpdated: nat)

  datatype Controller = Controller(
    vaults: map<nat, Vault>,
    nextVaultId: nat,
    ratios: map<CollateralType, nat>,       // LTV ratio in basis points
    minCollateral: map<CollateralType, nat>)

  /** Value, in iUSD base units, of an amount of a collateral type at the current price. */
  type Oracle = (CollateralType, nat) -> Result<nat>

  const BasisPoints: nat := 10000

  /** Largest debt a collateral value supports at a ratio given in basis points. */
  function MaxDebt(value: nat, ratio: nat): nat {
    value * ratio / BasisPoints
  }

  /** The liquidation ratio: 95% of the LTV ratio, truncated. */
  function LiquidationRatio(ratio: nat): nat {
    ratio * 95 / 100
  }

  /** The debt is above the liquidation threshold for this collateral value. */
  predicate BeyondThreshold(debt: nat, value: nat, ratio: nat) {
    debt > value * LiquidationRatio(ratio) / BasisPoints
  }

  /** `VaultController::default()`: no vaults, no configured collateral types. */
  function Empty(): Controller {
    Controller(map[], 0, map[], map[])
  }

  /** Every stored id was handed out before, so the counter is fresh. */
  predicate IdsBelowNext(c: Controller) {
    forall id :: id in c.vaults ==> id < c.nextVaultId
  }

  /** Every collateral type has a ratio and a minimum deposit. */
  predicate Supported(c: Controller) {
    forall ct: CollateralType :: ct in c.ratios && ct in c.minCollateral
  }

  /** `c'` differs from `c` at most in the vault stored under `id`. */
  predicate OnlyTouches(c: Controller, c': Controller, id: nat) {
    && c'.nextVaultId == c.nextVaultId
    && c'.ratios == c.ratios
    && c'.minCollateral == c.minCollateral
    && c'.vaults.Keys == c.vaults.Keys
    && forall k :: k in c.vaults && k != id ==> c'.vaults[k] == c.vaults[k]
  }

  function CreateVault(c: Controller, owner: string, ct: CollateralType, now: nat): (r: Step<Controller, nat>)
    ensures r.result == Ok(c.nextVaultId)
    ensures r.state.nextVaultId == c.nextVaultId + 1
    ensures r.state.ratios == c.ratios && r.state.minCollateral == c.minCollateral
    ensures r.state.vaults.Keys == c.vaults.Keys + {c.nextVaultId}
    ensures var v := r.state.vaults[c.nextVaultId];
      v.owner == owner && v.collateralType == ct && v.collateral == 0 && v.debt == 0 && v.lastUpdated == now
    ensures forall k :: k in c.vaults && k != c.nextVaultId ==> r.state.vaults[k] == c.vaults[k]
  {
    var id := c.nextVaultId;
    Step(c.(vaults := c.vaults[id := Vault(owner, 0, ct, 0, now)], nextVaultId := id + 1), Ok(id))
  }

  /** With the counter invariant, opening a vault adds exactly one vault and keeps the invariant. */
  lemma CreateVaultNeverOverwrites(c: Controller, owner: string, ct: CollateralType, now: nat)
    requires IdsBelowNext(c)
    ensures c.nextVaultId !in c.vaults
    ensures IdsBelowNext(CreateVault(c, owner, ct, now).state)
    ensures |CreateVault(c, owner, ct, now).state.vaults| == |c.vaults| + 1
  {
    var c' := CreateVault(c, owner, ct, now).state;
    assert c'.vaults.Keys == c.vaults.Keys + {c.nextVaultId};
    assert c.nextVaultId !in c.vaults.Keys;
  }

  function DepositCollateral(c: Controller, id: nat, amount: nat, now: nat): (r: Step<Controller, ()>)
    ensures r.result.Err? ==> r.state == c
    ensures id !in c.vaults ==> r.result == Err(VaultNotFound)
    ensures r.result.Ok? <==>
      && id in c.vaults
      && c.vaults[id].collateralType in c.minCollateral
      && c.vaults[id].collateral + amount >= c.minCollateral[c.vaults[id].collateralType]
    ensures id in c.vaults && c.vaults[id].collateralType in c.minCollateral
            && c.vaults[id].collateral + amount < c.minCollateral[c.vaults[id].collateralType]
            ==> r.result == Err(BelowMinimumCollateral)
    ensures r.result.Ok? ==>
      && OnlyTouches(c, r.state, id)
      && r.state.vaults[id].collateral == c.vaults[id].collateral + amount
      && r.state.vaults[id].debt == c.vaults[id].debt
      && r.state.vaults[id].owner == c.vaults[id].owner
      && r.state.vaults[id].collateralType == c.vaults[id].collateralType
      && r.state.vaults[id].lastUpdated == now
  {
    if id !in c.vaults then Step(c, Err(VaultNotFound))
    else
      var v := c.vaults[id];
      if v.collateralType !in c.minCollateral then Step(c, Err(CollateralTypeNotSupported))
      else if v.collateral + amount < c.minCollateral[v.collateralType] then Step(c, Err(BelowMinimumCollateral))
      else
        var v' := v.(collateral := v.collateral + amount, lastUpdated := now);
        Step(c.(vaults := c.vaults[id := v']), Ok(()))
  }

  /** Withdrawal as written: the LTV test compares `debt * 100` with the maximum debt the
      remaining collateral supports. */
  function WithdrawCollateral(c: Controller, id: nat, amount: nat, oracle: Oracle, now: nat): (r: Step<Controller, ()>)
    ensures r.result.Err? ==> r.state == c
    ensures id !in c.vaults ==> r.result == Err(VaultNotFound)
    ensures id in c.vaults && amount > c.vaults[id].collateral ==> r.result == Err(InsufficientCollateralBalance)
    ensures r.result.Ok? <==>
      && id in c.vaults
      && amount <= c.vaults[id].collateral
      && oracle(c.vaults[id].collateralType, c.vaults[id].collateral - amount).Ok?
      && c.vaults[id].collateralType in c.ratios
      && c.vaults[id].debt * 100 <= MaxDebt(oracle(c.vaults[id].collateralType, c.vaults[id].collateral - amount).value,
                                            c.ratios[c.vaults[id].collateralType])
    ensures r.result.Ok? ==>
      && OnlyTouches(c, r.state, id)
      && r.state.vaults[id].collateral + amount == c.vaults[id].collateral
      && r.state.vaults[id].debt == c.vaults[id].debt
      && r.state.vaults[id].owner == c.vaults[id].owner
      && r.state.vaults[id].collateralType == c.vaults[id].collateralType
      && r.state.vaults[id].lastUpdated == now
      && var ct := c.vaults[id].collateralType;
         && ct in c.ratios
         && r.state.vaults[id].debt * 100 <= MaxDebt(oracle(ct, r.state.vaults[id].collateral).value, c.ratios[ct])
  {
    if id !in c.vaults then Step(c, Err(VaultNotFound))
    else
      var v := c.vaults[id];
      if v.collateral < amount then Step(c, Err(InsufficientCollateralBalance))
      else
        var remaining := v.collateral - amount;
        match oracle(v.collateralType, remaining)
        case Err(e) => Step(c, Err(e))
        case Ok(value) =>
          if v.collateralType !in c.ratios then Step(c, Err(CollateralTypeNotSupported))
          else if v.debt * 100 > MaxDebt(value, c.ratios[v.collateralType]) then Step(c, Err(WithdrawalExceedsMaxLtv))
          else Step(c.(vaults := c.vaults[id := v.(collateral := remaining, lastUpdated := now)]), Ok(()))
  }

  /** Withdrawal with the LTV test `mint_iusd` uses: the existing debt must not exceed the
      maximum debt of the remaining collateral. */
  function WithdrawCollateralIntended(c: Controller, id: nat, amount: nat, oracle: Oracle, now: nat): (r: Step<Controller, ()>)
    ensures r.result.Err? ==> r.state == c
    ensures r.result.Ok? <==>
      && id in c.vaults
      && amount <= c.vaults[id].collateral
      && oracle(c.vaults[id].collateralType, c.vaults[id].collateral - amount).Ok?
      && c.vaults[id].collateralType in c.ratios
      && c.vaults[id].debt <= MaxDebt(oracle(c.vaults[id].collateralType, c.vaults[id].collateral - amount).value,
                                      c.ratios[c.vaults[id].collateralType])
    ensures r.result.Ok? ==>
      && id in c.vaults
      && OnlyTouches(c, r.state, id)
      && r.state.vaults[id].collateral + amount == c.vaults[id].collateral
      && r.state.vaults[id].debt == c.vaults[id].debt
      && r.state.vaults[id].owner == c.vaults[id].owner
      && r.state.vaults[id].collateralType == c.vaults[id].collateralType
      && r.state.vaults[id].lastUpdated == now
      && var ct := c.vaults[id].collateralType;
         && oracle(ct, r.state.vaults[id].collateral).Ok?
         && ct in c.ratios
         && r.state.vaults[id].debt <= MaxDebt(oracle(ct, r.state.vaults[id].collateral).value, c.ratios[ct])
  {
    if id !in c.vaults then Step(c, Err(VaultNotFound))
    else
      var v := c.vaults[id];
      if v.collateral < amount then Step(c, Err(InsufficientCollateralBalance))
      else
        var remaining := v.collateral - amount;
        match oracle(v.collateralType, remaining)
        case Err(e) => Step(c, Err(e))
        case Ok(value) =>
          if v.collateralType !in c.ratios then Step(c, Err(CollateralTypeNotSupported))
          else if v.debt > MaxDebt(value, c.ratios[v.collateralType]) then Step(c, Err(WithdrawalExceedsMaxLtv))
          else Step(c.(vaults := c.vaults[id := v.(collateral := remaining, lastUpdated := now)]), Ok(()))
  }

  /** The written test is at least as strict as the intended one: whatever it lets through, the
      intended test lets through with the same resulting state. */
  lemma WithdrawAsWrittenIsStricter(c: Controller, id: nat, amount: nat, oracle: Oracle, now: nat)
    requires WithdrawCollateral(c, id, amount, oracle, now).result.Ok?
    ensures WithdrawCollateralIntended(c, id, amount, oracle, now) == WithdrawCollateral(c, id, amount, oracle, now)
  {
  }

  /** A vault with 2000 units of collateral at one iUSD unit each, debt 10 and ratio 7500: after
      withdrawing 1000 the remaining value supports a debt of 750, yet the written test refuses
      because 10 * 100 > 750. */
  lemma WithdrawScaleCounterexample()
    ensures var c := Controller(map[0 := Vault("owner", 2000, ICP, 10, 0)], 1, map[ICP := 7500], map[ICP := 1000]);
            var oracle: Oracle := (ct, amount) => Ok(amount);
            && WithdrawCollateral(c, 0, 1000, oracle, 1).result == Err(WithdrawalExceedsMaxLtv)
            && WithdrawCollateralIntended(c, 0, 1000, oracle, 1).result == Ok(())
  {
    var c := Controller(map[0 := Vault("owner", 2000, ICP, 10, 0)], 1, map[ICP := 7500], map[ICP := 1000]);
    var oracle: Oracle := (ct, amount) => Ok(amount);
    assert oracle(ICP, 1000) == Ok(1000);
    assert MaxDebt(1000, 7500) == 750;
  }

  function MintIusd(c: Controller, id: nat, amount: nat, oracle: Oracle,
                    ownerIsPrincipal: bool, mintCallOk: bool, now: nat): (r: Step<Controller, ()>)
    ensures r.result.Err? ==> r.state == c
    ensures id !in c.vaults ==> r.result == Err(VaultNotFound)
    ensures id in c.vaults && oracle(c.vaults[id].collateralType, c.vaults[id].collateral).Ok?
            && c.vaults[id].collateralType in c.ratios
            && c.vaults[id].debt + amount > MaxDebt(oracle(c.vaults[id].collateralType, c.vaults[id].collateral).value,
                                                    c.ratios[c.vaults[id].collateralType])
            ==> r.result == Err(MintExceedsMaxLtv)
    ensures r.result.Ok? ==>
      && ownerIsPrincipal && mintCallOk
      && OnlyTouches(c, r.state, id)
      && r.state.vaults[id].debt == c.vaults[id].debt + amount
      && r.state.vaults[id].collateral == c.vaults[id].collateral
      && r.state.vaults[id].owner == c.vaults[id].owner
      && r.state.vaults[id].collateralType == c.vaults[id].collateralType
      && r.state.vaults[id].lastUpdated == now
      && var ct := c.vaults[id].collateralType;
         && oracle(ct, c.vaults[id].collateral).Ok?
         && ct in c.ratios
         && r.state.vaults[id].debt <= MaxDebt(oracle(ct, c.vaults[id].collateral).value, c.ratios[ct])
    ensures !mintCallOk ==> r.result.Err?
    ensures r.result.Ok? <==>
      && id in c.vaults
      && oracle(c.vaults[id].collateralType, c.vaults[id].collateral).Ok?
      && c.vaults[id].collateralType in c.ratios
      && c.vaults[id].debt + amount <= MaxDebt(oracle(c.vaults[id].collateralType, c.vaults[id].collateral).value,
                                               c.ratios[c.vaults[id].collateralType])
      && ownerIsPrincipal && mintCallOk
  {
    if id !in c.vaults then Step(c, Err(VaultNotFound))
    else
      var v := c.vaults[id];
      match oracle(v.collateralType, v.collateral)
      case Err(e) => Step(c, Err(e))
      case Ok(value) =>
        if v.collateralType !in c.ratios then Step(c, Err(CollateralTypeNotSupported))
        else if v.debt + amount > MaxDebt(value, c.ratios[v.collateralType]) then Step(c, Err(MintExceedsMaxLtv))
        else if !ownerIsPrincipal then Step(c, Err(InvalidOwnerPrincipal))
        else if !mintCallOk then Step(c, Err(MintCallFailed))
        else Step(c.(vaults := c.vaults[id := v.(debt := v.debt + amount, lastUpdated := now)]), Ok(()))
  }

  function RepayDebt(c: Controller, id: nat, amount: nat, ownerIsPrincipal: bool, burnCallOk: bool, now: nat): (r: Step<Controller, ()>)
    ensures r.result.Err? ==> r.state == c
    ensures id !in c.vaults ==> r.result == Err(VaultNotFound)
    ensures id in c.vaults && amount > c.vaults[id].debt ==> r.result == Err(RepaymentExceedsDebt)
    ensures r.result.Ok? <==> id in c.vaults && amount <= c.vaults[id].debt && ownerIsPrincipal && burnCallOk
    ensures r.result.Ok? ==>
      && OnlyTouches(c, r.state, id)
      && r.state.vaults[id].debt + amount == c.vaults[id].debt
      && r.state.vaults[id].collateral == c.vaults[id].collateral
      && r.state.vaults[id].owner == c.vaults[id].owner
      && r.state.vaults[id].collateralType == c.vaults[id].collateralType
      && r.state.vaults[id].lastUpdated == now
  {
    if id !in c.vaults then Step(c, Err(VaultNotFound))
    else
      var v := c.vaults[id];
      if v.debt < amount then Step(c, Err(RepaymentExceedsDebt))
      else if !ownerIsPrincipal then Step(c, Err(InvalidOwnerPrincipal))
      else if !burnCallOk then Step(c, Err(BurnCallFailed))
      else Step(c.(vaults := c.vaults[id := v.(debt := v.debt - amount, lastUpdated := now)]), Ok(()))
  }

  /** The vault with only its timestamp moved to `now`. */
  function Touched(c: Controller, id: nat, now: nat): Controller
    requires id in c.vaults
  {
    c.(vaults := c.vaults[id := c.vaults[id].(lastUpdated := now)])
  }

  /** Withdrawing what was just deposited is judged on the original collateral, and when it
      succeeds it restores the controller up to the timestamp. */
  lemma DepositThenWithdraw(c: Controller, id: nat, amount: nat, oracle: Oracle, t1: nat, t2: nat)
    requires DepositCollateral(c, id, amount, t1).result.Ok?
    ensures id in c.vaults
    ensures var v := c.vaults[id];
      var w := WithdrawCollateral(DepositCollateral(c, id, amount, t1).state, id, amount, oracle, t2);
      && (w.result.Ok? <==>
            && oracle(v.collateralType, v.collateral).Ok?
            && v.collateralType in c.ratios
            && v.debt * 100 <= MaxDebt(oracle(v.collateralType, v.collateral).value, c.ratios[v.collateralType]))
      && (w.result.Ok? ==> w.state == Touched(c, id, t2))
  {
  }

  /** Repaying what was just minted succeeds and restores the controller up to the timestamp. */
  lemma MintThenRepay(c: Controller, id: nat, amount: nat, oracle: Oracle, t1: nat, t2: nat)
    requires MintIusd(c, id, amount, oracle, true, true, t1).result.Ok?
    ensures id in c.vaults
    ensures RepayDebt(MintIusd(c, id, amount, oracle, true, true, t1).state, id, amount, true, true, t2)
            == Step(Touched(c, id, t2), Ok(()))
  {
    var v := c.vaults[id];
    var m := MintIusd(c, id, amount, oracle, true, true, t1).state;
    assert m.vaults == c.vaults[id := v.(debt := v.debt + amount, lastUpdated := t1)];
    assert m.vaults[id := m.vaults[id].(debt := v.debt, lastUpdated := t2)] == c.vaults[id := v.(lastUpdated := t2)];
  }

  function IsLiquidatable(c: Controller, id: nat, oracle: Oracle): (r: Result<bool>)
    ensures id !in c.vaults ==> r == Err(VaultNotFound)
    ensures r.Ok? ==>
      && id in c.vaults
      && var v := c.vaults[id];
         && v.collateralType in c.ratios
         && oracle(v.collateralType, v.collateral).Ok?
         && (r.value <==> BeyondThreshold(v.debt, oracle(v.collateralType, v.collateral).value, c.ratios[v.collateralType]))
    ensures id in c.vaults && r.Err? ==>
      var v := c.vaults[id];
      oracle(v.collateralType, v.collateral).Err? || v.collateralType !in c.ratios
  {
    if id !in c.vaults then Err(VaultNotFound)
    else
      var v := c.vaults[id];
      match oracle(v.collateralType, v.collateral)
      case Err(e) => Err(e)
      case Ok(value) =>
        if v.collateralType !in c.ratios then Err(CollateralTypeNotSupported)
        else Ok(BeyondThreshold(v.debt, value, c.ratios[v.collateralType]))
  }

  /** Floor division by a positive constant is monotone. */
  lemma DivMonotone(a: nat, b: nat, d: nat)
    requires a <= b && 0 < d
    ensures a / d <= b / d
  {
    var q, q' := a / d, b / d;
    assert q * d <= a;
    assert b < (q' + 1) * d;
    MulCancel(q, q' + 1, d);
  }

  /** A strict inequality between multiples of a positive number is one between the factors. */
  lemma MulCancel(x: nat, y: nat, d: nat)
    requires 0 < d && x * d < y * d
    ensures x < y
  {
    if y <= x {
      MulMonotone(y, x, d);
    }
  }

  /** Multiplying by a natural number is monotone. */
  lemma MulMonotone(a: nat, b: nat, k: nat)
    requires a <= b
    ensures a * k <= b * k
  {
  }

  /** For a fixed debt, a lower collateral value can only turn "not liquidatable" into
      "liquidatable", never the reverse. */
  lemma LiquidatableMonotoneInValue(debt: nat, value: nat, value': nat, ratio: nat)
    requires value' <= value
    requires BeyondThreshold(debt, value, ratio)
    ensures BeyondThreshold(debt, value', ratio)
  {
    var t := LiquidationRatio(ratio);
    MulMonotone(value', value, t);
    DivMonotone(value' * t, value * t, BasisPoints);
  }

  /** The same statement for a vault, between two price situations. */
  lemma VaultLiquidatableMonotone(c: Controller, id: nat, oracle: Oracle, lower: Oracle)
    requires IsLiquidatable(c, id, oracle) == Ok(true)
    requires id in c.vaults
    requires var v := c.vaults[id];
      && lower(v.collateralType, v.collateral).Ok?
      && lower(v.collateralType, v.collateral).value <= oracle(v.collateralType, v.collateral).value
    ensures IsLiquidatable(c, id, lower) == Ok(true)
  {
    var v := c.vaults[id];
    LiquidatableMonotoneInValue(v.debt, oracle(v.collateralType, v.collateral).value,
                                lower(v.collateralType, v.collateral).value, c.ratios[v.collateralType]);
  }

  /** The liquidation ratio never exceeds the LTV ratio, so a debt above the mint-time cap is
      always liquidatable. */
  lemma AboveMintCapIsLiquidatable(debt: nat, value: nat, ratio: nat)
    requires debt > MaxDebt(value, ratio)
    ensures BeyondThreshold(debt, value, ratio)
  {
    assert LiquidationRatio(ratio) <= ratio;
    MulMonotone(LiquidationRatio(ratio), ratio, value);
    assert value * LiquidationRatio(ratio) <= value * ratio;
    DivMonotone(value * LiquidationRatio(ratio), value * ratio, BasisPoints);
  }

  /** The converse fails: a vault minted exactly to the cap is already liquidatable. */
  lemma MintCapNotSafe()
    ensures MaxDebt(10000, 7500) == 7500
    ensures BeyondThreshold(MaxDebt(10000, 7500), 10000, 7500)
  {
  }
}
